=== FILE: README.md ===
# AccessRank in Dafny

A model of the AccessRank prediction engine (`AccessRank/src/AccessRank/AccessRank.swift`).
AccessRank is the ranking algorithm of Fitchett and Cockburn. The engine watches a stream of item visits and
keeps a list of the items the user is likely to visit next. Its state has four parts:
- a map from item id to `ItemState`;
- the `predictionList` of scored items;
- a visit counter;
- the id of the current item, where the sentinel `"<access_rank_nil>"` means "no current item".

The model is a pure state transformer over an immutable datatype.

| file | module | contents |
|---|---|---|
| `wrappers.dfy` | `Wrappers` | `Option`, with failure propagation for `:-` |
| `items.dfy` | `Items` | `ItemVisit`, `ItemState`, `ScoredItem` and the per-item updates (`addVisitToItem`, `removeVisitsToItem`, `updateVisits`) |
| `time_slots.dfy` | `TimeSlots` | the integer counts behind the time weight: ±1-hour windows, exact weekdays, and the 8-slot and 7-day averaging bases |
| `scores.dfy` | `Scores` | list-stability constants, Markov weight, hour-of-day and day-of-week ratios, the clamped time factor, the combined score |
| `ordering.dfy` | `Ordering` | the stability-aware sort comparator and a sort that uses it |
| `engine.dfy` | `Engine` | the engine state, its invariant, `mostRecentItem`, `predictions`, the four steps of `updatePredictionList`, `visitItem`, `removeItems`/`removeItem` |
| `snapshot.dfy` | `Snapshot` | `toDictionary` / `fromDictionary` / `init(data:)` as encode and decode over a small property-list datatype |
| `findings.dfy` | `Findings` | the list-admission step as written, next to the corrected one the engine uses |
| `scenarios.dfy` | `Scenarios` | runs of visits, and the outcomes the unit tests check, proved for every clock reading |

Choices that shape the model:
- **Clock and calendar.** Reads of the clock and calendar become a `Clock(hour, weekday, now)` parameter of each operation that reads them.
- **`pow` and doubles.** The C library `pow` is an uninterpreted parameter `pow: (real, real) -> real`. Doubles are reals.
- **Division by a zero average.** Where the original divides by a zero average (an infinite or NaN double), the model yields a `NonFinite` ratio. Swift's `min` and `max` then return 1.25, and the model does the same.
- **Engine-wide counts.** These are sums over dictionary iterations in the original. The model states them as cardinalities of sets of `Transition` records: source item, target item, position and stamped visit.
- **The sort.** The original sorts with a library sort. The model uses an insertion sort with the same comparator. Its contract is a permutation of the input in which no element is ordered before its predecessor.
- **Decoding.** `as!` casts that would trap become `None`.
- **The invariant.** `Engine.Valid` is the invariant every operation keeps:
  - every listed id has a state with at least one visit;
  - ids are unique;
  - the sentinel is never listed;
  - a current item on its first visit is listed.

  It is what makes the force-unwraps at lines 135-136, 156 and 200 safe.

## Model

| member | source | states |
|---|---|---|
| Items.AddVisitTo | AccessRank/src/AccessRank/AccessRank.swift:377-388 | the transitions to `item` grow by exactly one record stamped with the given hour and weekday; every other key of `nextVisits` and every other field is unchanged |
| Items.RemoveVisitsTo | AccessRank/src/AccessRank/AccessRank.swift:390-392 | afterwards `item` is not a key of `nextVisits`; the other keys and every other field are unchanged |
| Items.RemoveUndoesAdd | AccessRank/src/AccessRank/AccessRank.swift:377-392 | removing the transitions to an item after recording one more gives the same state as removing them before |
| Items.UpdateVisits | AccessRank/src/AccessRank/AccessRank.swift:394-401 | the visit count goes up by one; the CRF weight decays by `2^(-0.1·Δ)` over the Δ visits since the last stamp and gains 1; the state is stamped with the engine's visit number and the current time; transitions and rank are untouched |
| Items.PermutationKeepsNoDuplicates | AccessRank/src/AccessRank/AccessRank.swift:133-152 | reordering a sequence (same multiset) neither creates nor removes duplicate ids |
| TimeSlots.HourSlot | AccessRank/src/AccessRank/AccessRank.swift:421-432 | a record counts for slot `h` exactly when its hour lies in `[h-1, h+1]`; there is no wrap-around, so slot 0 never counts hour 23 and slot 23 never counts hour 0 |
| TimeSlots.OnWeekday | AccessRank/src/AccessRank/AccessRank.swift:444-455 | a record counts for a weekday exactly when it was stamped with that weekday |
| TimeSlots.SlotSumTilesHours | AccessRank/src/AccessRank/AccessRank.swift:235-244 | the first `n` windows centred at hours 1, 4, 7, … together count exactly the records with hours in `0 .. 3n-1` |
| TimeSlots.HourSlotsPartitionDay | AccessRank/src/AccessRank/AccessRank.swift:235-252 | the 8-slot averaging base of an item equals the number of transitions into it with hours in 0..23 |
| TimeSlots.WeekdaySumTilesDays | AccessRank/src/AccessRank/AccessRank.swift:277-283 | the weekday counts for 1..n sum to the number of records stamped with weekdays in 1..n |
| TimeSlots.WeekdaysPartitionWeek | AccessRank/src/AccessRank/AccessRank.swift:277-291 | the 7-day averaging base of an item equals the number of transitions into it with weekdays in 1..7 |
| TimeSlots.HourWindowWithinBase | AccessRank/src/AccessRank/AccessRank.swift:214-252 | for clock-stamped histories and an hour in 0..23, the current-window count of an item never exceeds its 8-slot base |
| TimeSlots.WeekdayWithinBase | AccessRank/src/AccessRank/AccessRank.swift:256-291 | for clock-stamped histories, the current-weekday count of an item never exceeds its 7-day base |
| Scores.Stability.L | AccessRank/src/AccessRank/AccessRank.swift:34-43 | the exponent `l` of every stability level is positive |
| Scores.Stability.D | AccessRank/src/AccessRank/AccessRank.swift:34-43 | the rank bonus `d` of every stability level is non-negative |
| Scores.MarkovWeight | AccessRank/src/AccessRank/AccessRank.swift:182-195 | the weight is positive; `w·(xn+1) = x+1` for x transitions out of xn visits; it is at most 1 exactly when x ≤ xn |
| Scores.Quotient | AccessRank/src/AccessRank/AccessRank.swift:218-218 | the division of a count by an average, here and at line 260: non-finite exactly when the average is 0; otherwise the result times the average gives back the count |
| Scores.HourOfDayRatio | AccessRank/src/AccessRank/AccessRank.swift:214-219 | the ratio is exactly 1 while fewer than 10 transitions of any item fall in the current hour window; past that gate it is non-finite exactly when the item's 8-slot base is 0, and otherwise equals 8 · (the item's visits in the current slot) / base |
| Scores.DayOfWeekRatio | AccessRank/src/AccessRank/AccessRank.swift:256-261 | the ratio is exactly 1 while fewer than 10 transitions of any item fall on the current weekday; past that gate it is non-finite exactly when the item's 7-day base is 0, and otherwise equals 7 · (the item's visits on the current weekday) / base |
| Scores.HourRatioBounded | AccessRank/src/AccessRank/AccessRank.swift:214-252 | for clock-stamped histories a finite hour ratio lies in [0, 8]; a non-finite one arises only as 0/0, with no visit to the item in the current slot |
| Scores.WeekdayRatioBounded | AccessRank/src/AccessRank/AccessRank.swift:256-291 | for clock-stamped histories a finite weekday ratio lies in [0, 7]; a non-finite one arises only as 0/0, with no visit to the item in the current slot |
| Scores.TimeFactor | AccessRank/src/AccessRank/AccessRank.swift:209-209 | the clamp lands in [0.8, 1.25]; it is the product of the ratios when that product is in range, and 1.25 when either ratio is non-finite |
| Scores.TimeWeight | AccessRank/src/AccessRank/AccessRank.swift:205-210 | the weight is 1 with time weighting off; with both gates below 10 it is `pow(1, 0.25)` |
| Ordering.Before | AccessRank/src/AccessRank/AccessRank.swift:133-152 | with d = 0: descending score, ties broken by more recent last visit. With equal scores: the more recent item first. A better-ranked item with `scoreA + d > scoreB` (scores differing) stays ahead, and a worse-ranked one falls behind unless it leads by at least d; at a lead of exactly d the more recent visit decides |
| Ordering.BeforeIsIrreflexive | AccessRank/src/AccessRank/AccessRank.swift:133-152 | no entry sorts before itself |
| Ordering.BeforeIsAsymmetric | AccessRank/src/AccessRank/AccessRank.swift:133-152 | two entries never each sort before the other |
| Ordering.InsertKeepsOrder | AccessRank/src/AccessRank/AccessRank.swift:133-152 | inserting into a list in comparator order keeps it in comparator order |
| Ordering.InsertSortedIds | AccessRank/src/AccessRank/AccessRank.swift:133-152 | inserting an entry adds exactly its id to the multiset of listed ids |
| Ordering.Sort | AccessRank/src/AccessRank/AccessRank.swift:133-134 | the sorted list is a permutation of the input (entries and ids), and no neighbouring pair is one the comparator would swap |
| Ordering.SortKeepsDistinct | AccessRank/src/AccessRank/AccessRank.swift:133-152 | sorting keeps the ids unique exactly when they were unique |
| Engine.FreshIsValid | AccessRank/src/AccessRank/AccessRank.swift:49-56 | a new engine satisfies the invariant, has no current item and predicts nothing |
| Engine.MostRecentItem | AccessRank/src/AccessRank/AccessRank.swift:25-27 | no current item exactly when the sentinel is current; otherwise the current id |
| Engine.Predictions | AccessRank/src/AccessRank/AccessRank.swift:28-32 | an id is predicted exactly when it is listed and is not the current item; when the current item is not listed the predictions are the list's ids in list order |
| Engine.PredictionsKeepListOrder | AccessRank/src/AccessRank/AccessRank.swift:28-32 | with unique ids and the current item at position k of the list, the predictions are the list's ids in order with position k dropped |
| Engine.WithoutSingle | AccessRank/src/AccessRank/AccessRank.swift:29-31 | filtering one value out of a duplicate-free sequence drops exactly its one position and keeps the order of the rest |
| Engine.PredictionsExcludeCurrentAndSentinel | AccessRank/src/AccessRank/AccessRank.swift:28-32 | under the invariant, the predictions contain neither the current item nor the sentinel |
| Engine.PredictionCount | AccessRank/src/AccessRank/AccessRank.swift:28-32 | with unique ids there is one prediction per listed entry, minus one if the current item is listed |
| Engine.Rescore | AccessRank/src/AccessRank/AccessRank.swift:124-131 | rescoring keeps every entry's id and position and gives each entry its item's score, computed from the state after the visit and with the new current item |
| Engine.SortKeepsScores | AccessRank/src/AccessRank/AccessRank.swift:133-152 | any permutation of the rescored list, the sorted one included, still carries each item's fresh score |
| Engine.Rerank | AccessRank/src/AccessRank/AccessRank.swift:154-160 | each listed item's rank becomes its index; items outside the prefix are untouched; no history changes |
| Engine.Reorder | AccessRank/src/AccessRank/AccessRank.swift:115-118 | rescore, sort, rerank keeps the invariant's list part, the item keys, every history and the multiset of listed ids, and ranks equal list positions; the new list is in comparator order, with the stability bonus, over the ranks held before the update, and every entry carries its item's fresh score |
| Engine.Admit | AccessRank/src/AccessRank/AccessRank.swift:162-167 | the current item is appended with score 0 exactly when it is a real item on its first visit and not yet listed; otherwise nothing changes (corrected; as written: `Findings.AdmitAsWritten`) |
| Engine.UpdatePredictionList | AccessRank/src/AccessRank/AccessRank.swift:115-122 | the result satisfies the invariant; histories and keys are unchanged; the list gains at most the admitted current item, at its end; previously listed items have rank equal to their index (corrected admission; as written: `Findings.UpdatePredictionListAsWritten`) |
| Engine.UpdateOrdersAndScores | AccessRank/src/AccessRank/AccessRank.swift:115-119 | the entries listed before the update come first, in comparator order with the stability bonus over the ranks held before the update, each with its item's fresh score |
| Engine.RecordHistory | AccessRank/src/AccessRank/AccessRank.swift:66-77 | one more transition previous→x (other keys kept); when x differs from the previous item, the previous item's statistics and x's transitions are untouched; x's count +1, stamped, its CRF weight decayed by `2^(-0.1·Δ)` and increased by 1, its rank kept; the visit counter +1; the current item is x; the other items unchanged; admission happens exactly on x's first visit |
| Engine.RecordVisit | AccessRank/src/AccessRank/AccessRank.swift:60-80 | a visit keeps the invariant, bumps the counter, makes x current, and lists x in addition to the old list exactly on its first visit |
| Engine.VisitRecordsHistory | AccessRank/src/AccessRank/AccessRank.swift:66-79 | after a full visit, the transition, visit count, stamps and decayed CRF weight of x are recorded; when x differs from the previous item, the previous item keeps its count, weight and stamps and x keeps its transitions; the previously listed items come first, rescored from the recorded state, in comparator order, with ranks equal to their new positions |
| Engine.SelfVisitKeepsBothUpdates | AccessRank/src/AccessRank/AccessRank.swift:71-77 | revisiting the current item keeps both the new self-transition and the incremented visit count |
| Engine.VisitItem | AccessRank/src/AccessRank/AccessRank.swift:60-64 | visiting nothing only clears the current item (states, list and counter unchanged); visiting an item bumps the counter and makes it current |
| Engine.RemoveFirst | AccessRank/src/AccessRank/AccessRank.swift:108-110 | the list loses one occurrence of the id, if any |
| Engine.RemoveFirstAt | AccessRank/src/AccessRank/AccessRank.swift:108-110 | if the id first occurs at position k, exactly that position is dropped and the order of the rest is kept |
| Engine.RemoveFirstAbsent | AccessRank/src/AccessRank/AccessRank.swift:108-110 | an id that is not listed leaves the list unchanged |
| Engine.RemoveFirstNoMatch | AccessRank/src/AccessRank/AccessRank.swift:108-110 | a list none of whose entries carries the id is left unchanged |
| Engine.RemoveFirstFromDistinct | AccessRank/src/AccessRank/AccessRank.swift:108-110 | with unique ids, exactly that id leaves the list |
| Engine.RemoveItem | AccessRank/src/AccessRank/AccessRank.swift:98-111 | the item's state is gone, no remaining state has transitions to it, other statistics are kept, the list loses exactly that id, and the invariant's list part holds |
| Engine.RemovedFromComposes | AccessRank/src/AccessRank/AccessRank.swift:86-89 | removing one set after another removes their union |
| Engine.RemoveAll | AccessRank/src/AccessRank/AccessRank.swift:86-89 | removing each id in turn removes the whole set from states, transitions and list |
| Engine.RemovalAdmitsNothing | AccessRank/src/AccessRank/AccessRank.swift:91-95 | the list update after a removal never appends anything (corrected admission; as written: `Findings.RemoveItemsAsWritten`) |
| Engine.RemoveItems | AccessRank/src/AccessRank/AccessRank.swift:86-96 | no removed id is a key, a transition target, listed or predicted; other ids keep their list membership; a removed current item leaves no current item; the counter is kept; the invariant holds; the remaining list is rescored from the state after removal, in comparator order over the ranks held before, and every rank equals its new position |
| Snapshot.GetStr | AccessRank/src/AccessRank/AccessRank.swift:338-338 | a string is read exactly when the key is present and holds a string |
| Snapshot.GetInt | AccessRank/src/AccessRank/AccessRank.swift:339-340 | an integer is read exactly when the key is present and holds an integer |
| Snapshot.GetNum | AccessRank/src/AccessRank/AccessRank.swift:372-373 | a double is read exactly when the key is present and holds a double |
| Snapshot.EncodeVisit | AccessRank/src/AccessRank/AccessRank.swift:343-349 | a visit record becomes a dictionary with exactly the keys id, hour and weekday, each holding that field |
| Snapshot.DecodeVisit | AccessRank/src/AccessRank/AccessRank.swift:337-341 | decoding succeeds only when id, hour and weekday are present with the right types |
| Snapshot.VisitRoundTrip | AccessRank/src/AccessRank/AccessRank.swift:337-349 | decoding an encoded transition record gives it back |
| Snapshot.VisitsRoundTrip | AccessRank/src/AccessRank/AccessRank.swift:366-366 | decoding an encoded sequence of records gives it back, in order |
| Snapshot.DecodeNextVisits | AccessRank/src/AccessRank/AccessRank.swift:363-369 | a decoded transition map has exactly the keys of the dictionary |
| Snapshot.NextVisitsRoundTrip | AccessRank/src/AccessRank/AccessRank.swift:458-461 | decoding an encoded transition map gives it back |
| Snapshot.EncodeState | AccessRank/src/AccessRank/AccessRank.swift:457-471 | an item state becomes a dictionary with exactly its six field names; the transitions become a dictionary with the same target keys, and the five scalar fields read back unchanged |
| Snapshot.DecodeState | AccessRank/src/AccessRank/AccessRank.swift:362-375 | decoding succeeds only when every field is present with the right type |
| Snapshot.StateRoundTrip | AccessRank/src/AccessRank/AccessRank.swift:457-471 | decoding an encoded item state gives back all six fields |
| Snapshot.DecodeItems | AccessRank/src/AccessRank/AccessRank.swift:312-316 | decoded items have exactly the keys of the dictionary |
| Snapshot.ItemsRoundTrip | AccessRank/src/AccessRank/AccessRank.swift:296-299 | decoding the encoded item map gives it back |
| Snapshot.EncodeScored | AccessRank/src/AccessRank/AccessRank.swift:497-502 | a scored entry becomes a dictionary with exactly the keys id and score, each holding that field |
| Snapshot.DecodeScored | AccessRank/src/AccessRank/AccessRank.swift:492-495 | decoding succeeds only when id and score are present with the right types |
| Snapshot.ListRoundTrip | AccessRank/src/AccessRank/AccessRank.swift:318-319 | decoding the encoded prediction list gives it back, in order |
| Snapshot.ToDictionary | AccessRank/src/AccessRank/AccessRank.swift:295-309 | the snapshot has exactly the four keys items, predictionList, visitNumber and mostRecentItemID; the items dictionary has the engine's item keys, the list array has the list's length, and the counter and current id read back unchanged |
| Snapshot.FromDictionary | AccessRank/src/AccessRank/AccessRank.swift:311-322 | restoring succeeds only when all four entries are present with the right types; stability and time weighting stay the receiver's |
| Snapshot.Init | AccessRank/src/AccessRank/AccessRank.swift:49-56 | without a snapshot the engine is fresh; in every case it has the given stability and time weighting on |
| Snapshot.SnapshotRoundTrip | AccessRank/src/AccessRank/AccessRank.swift:295-322 | restoring a snapshot gives back items, list, counter and current item exactly |
| Snapshot.RestoreKeepsPredictions | AccessRankTests/AccessRankTests.swift:98-108 | an engine built from its own snapshot always succeeds, reports the same current item and predictions, keeps the invariant, and is the same engine when time weighting is on |
| Findings.AdmitAsWritten | AccessRank/src/AccessRank/AccessRank.swift:162-167 | as written, admission traps exactly when the current id has no state; otherwise it appends the current item with score 0 whenever it is a real item on its first visit, listed or not, and changes nothing else |
| Findings.AdmitAsWrittenDuplicates | AccessRank/src/AccessRank/AccessRank.swift:162-167 | as written, for every engine whose current item is a real item on its first visit and already listed, admission appends a second entry for it, so the ids are no longer distinct |
| Findings.UpdatePredictionListAsWritten | AccessRank/src/AccessRank/AccessRank.swift:115-122 | the list update as written traps exactly when the current item has no state; otherwise the list gains one entry exactly when the current item is a real item on its first visit, whether or not it was listed |
| Findings.RemoveItemsAsWritten | AccessRank/src/AccessRank/AccessRank.swift:86-96 | removal as written traps exactly when the item current after the removal (the sentinel if the current item was removed) has no state left; otherwise no removed id stays listed |
| Findings.VisitItemAsWritten | AccessRank/src/AccessRank/AccessRank.swift:60-80 | a visit as written never traps: it makes the visited item current (the sentinel for nil), counts a named visit, and leaves the list alone for nil |
| Findings.FreshRemovalTraps | AccessRank/src/AccessRank/AccessRank.swift:162-163 | as written, `removeItems` on a never-visited engine traps, whatever the ids |
| Findings.FreshRemovalIsNoOp | AccessRank/src/AccessRank/AccessRank.swift:86-96 | corrected, the same removal leaves the engine unchanged |
| Findings.FirstVisitToA | AccessRank/src/AccessRank/AccessRank.swift:60-80 | a first visit to A from a fresh engine lists exactly A, with one visit |
| Findings.RemovalReadmitsNewItem | AccessRank/src/AccessRank/AccessRank.swift:164-165 | as written, removing B right after a first visit to A lists A twice |
| Findings.RemovalKeepsNewItemOnce | AccessRank/src/AccessRank/AccessRank.swift:86-96 | corrected, the same removal lists A once |
| Findings.CorrectionInvisibleToVisits | AccessRank/src/AccessRank/AccessRank.swift:60-80 | on every visit of a valid engine, the original admission and the corrected one give the same engine |
| Scenarios.RunVisits | AccessRank/src/AccessRank/AccessRank.swift:60-80 | a run of visits keeps the invariant and ends with the last visited item current, or none after a visit to nothing |
| Scenarios.FirstVisitsGrowList | AccessRank/src/AccessRank/AccessRank.swift:60-80 | first visits to distinct new items append one entry each and nothing else; only those items and the sentinel gain a state |
| Scenarios.RunPredictsEarlierVisits | AccessRank/src/AccessRank/AccessRank.swift:28-32 | from an empty list, a run of first visits ending on an item predicts exactly the other named items, one each |
| Scenarios.ThreeVisitsPredictTwo | AccessRankTests/AccessRankTests.swift:52-66 | after A, B, C there are two predictions and C is the current item |
| Scenarios.ThreeVisitsPredictEarlierTwo | AccessRankTests/AccessRankTests.swift:77-83 | after A, B, C the predictions are A and B, so the current item is not among them |
| Scenarios.TwoVisitsPredictOne | AccessRankTests/AccessRankTests.swift:110-124 | after A, B there is exactly one prediction, A |
| Scenarios.NilVisitKeepsSentinelOut | AccessRankTests/AccessRankTests.swift:68-75 | after A, B, nothing, C the sentinel is not predicted and C is current |
| Scenarios.NilVisitPredictsEarlierTwo | AccessRankTests/AccessRankTests.swift:68-75 | after A, B, nothing, C the predictions are exactly A and B |
| Scenarios.RevisitKeepsList | AccessRank/src/AccessRank/AccessRank.swift:162-167 | revisiting a listed item makes it current and leaves the listed ids as they were |
| Scenarios.RemoveCurrentAndC | AccessRank/src/AccessRank/AccessRank.swift:86-96 | removing C and the current A from a list of A, B, C leaves no current item, drops A and C from the states and predicts only B |
| Scenarios.ReturnToFirstListsThree | AccessRankTests/AccessRankTests.swift:86-90 | after A, B, C, A the list holds exactly A, B, C and A is current |
| Scenarios.RemovingCurrentAndOther | AccessRankTests/AccessRankTests.swift:85-96 | after A, B, C, A, removing C and A leaves no current item and only B predicted |
| Scenarios.RunOneMore | AccessRank/src/AccessRank/AccessRank.swift:60-80 | a run followed by one more visit is the longer run |

## Left out

- **Floating-point arithmetic.** `pow`, the CRF decay `2^(-0.1·Δ)`, the exponents of the score and the fourth root of the time weight are left uninterpreted. Doubles are exact reals, so rounding, infinities and NaN are not modelled. The one exception is a division by a zero average, which is modelled.
- Scores.Score: no contract. Every factor of the score passes through the uninterpreted `pow`, so nothing is stated about its value.
- Scores.TimeWeight: states the weight only where the gates make it independent of the ratios. The rest goes through `pow`.
- **Clock and calendar reads.** These are one `Clock` value per operation. The original reads the clock separately for the transition stamp and the visit time; the model assumes these reads agree.
- **The library sort.** The library sort's exact output order is not modelled, because the comparator need not be a strict weak ordering. The sort is an insertion sort with the same comparator; its contract is a permutation kept in comparator order.
- Ordering.Before: the property that a better-ranked item keeps its place is stated only when the two scores differ. With equal scores the comparator breaks the tie by last-visit time, whatever the ranks.
- **The stability tests** (AccessRankTests/AccessRankTests.swift:20-50). Their expected orders depend on `pow` results and wall-clock time stamps.
- **The delegate.** The callback at line 121 is a notification with no effect on the state.
- **The debug descriptions** (lines 473-480 and 505-529). They are string dumps.
- **The UI and demo code**, and the `Codable`/`JSONEncoder` path the persistence test uses. The snapshot model covers `toDictionary`/`fromDictionary` instead.
- **Fixed-width integers.** Integers are unbounded, so a 64-bit overflow of the visit counter is not modelled. `Int.max`, the rank of a never-ranked item, is kept as a constant.
- **Mutable `initialItem`.** `initialItem` is a public variable in the original; the model fixes it to its initial value, the sentinel.
- **Decoder strictness.** Decoding a snapshot requires integers where the original reads `Int` and doubles where it reads `Double`. Foundation's bridging of numbers between the two is not modelled.
- **Unicode equivalence of ids.** Ids are compared code point by code point. Swift's `String` equality and dictionary keys use canonical equivalence, so "\u{E9}" and "e\u{301}" are one item there and two items here. The model agrees with the original for ids without combining sequences, such as ASCII ids.
- **Reference semantics.** Object identity, the weak delegate reference and concurrency are not modelled; the engine is single-threaded and the model is a value.

## Findings

| source | as written | input that shows it | evidently intended | confidence | as-written member | corrected member |
|---|---|---|---|---|---|---|
| AccessRank/src/AccessRank/AccessRank.swift:162-163 | the list update force-unwraps the current item's state, and `removeItems` always runs the list update | a fresh engine, then `removeItems(["X"])`: the sentinel has no state yet | removing from an engine never visited does nothing | not executed | Findings.FreshRemovalTraps | Findings.FreshRemovalIsNoOp |
| AccessRank/src/AccessRank/AccessRank.swift:164-165 | the current item is appended whenever its visit count is 1, even if it is already listed | `visitItem("A")`, then `removeItems(["B"])`: the list becomes A, A | an item is admitted once, on its first visit | not executed | Findings.RemovalReadmitsNewItem | Findings.RemovalKeepsNewItemOnce |

The engine model uses the corrected admission:
- admission looks the state up optionally;
- it requires the item not yet to be listed.

`Findings.CorrectionInvisibleToVisits` shows that on a visit the correction gives the same result as the code as written. It differs only after a removal.

=== FILE: engine.dfy ===
/** The AccessRank prediction engine as a state transformer: recording visits,
    maintaining the prediction list, and removing items. */
module Engine {
  import opened Wrappers
  import opened Items
  import opened TimeSlots
  import opened Scores
  import opened Ordering

  /** The id that stands for "no current item". */
  const Sentinel: string := "<access_rank_nil>"

  datatype AccessRank = AccessRank(
    listStability: Stability,
    useTimeWeighting: bool,
    items: map<string, ItemState>,
    visitNumber: int,
    mostRecentItemID: string,
    predictionList: seq<ScoredItem>)

  /** A new engine, before any visit and without a snapshot. */
  function Fresh(stability: Stability): AccessRank {
    AccessRank(stability, true, map[], 0, Sentinel, [])
  }

  /** The stored state of `id`, or that of a never-seen item. */
  function StateFor(items: map<string, ItemState>, id: string): ItemState {
    if id in items then items[id] else NewItemState()
  }

  // ---------------------------------------------------------------------------
  // Invariants

  /** What the prediction list relies on: every listed id has a state (the
      comparator, the re-ranking and the weight lookups unwrap it), ids are
      pairwise different, the sentinel is never listed, visit counts are not
      negative and listed items have been visited. */
  ghost predicate ListWellFormed(e: AccessRank) {
    && (forall id | id in Ids(e.predictionList) :: id in e.items && e.items[id].numberOfVisits >= 1)
    && DistinctIds(e.predictionList)
    && Sentinel !in Ids(e.predictionList)
    && (forall id | id in e.items :: e.items[id].numberOfVisits >= 0)
  }

  lemma WellFormedIsListed(e: AccessRank)
    requires ListWellFormed(e)
    ensures Listed(e.items, e.predictionList)
  {
    ListedByIds(e.items, e.predictionList);
  }

  /** Replacing the list by one with the same ids, and the states by ones with
      the same history, keeps the list well formed. */
  lemma SameIdsKeepWellFormed(e: AccessRank, items: map<string, ItemState>, list: seq<ScoredItem>)
    requires ListWellFormed(e)
    requires multiset(Ids(list)) == multiset(Ids(e.predictionList))
    requires items.Keys == e.items.Keys
    requires forall id | id in e.items :: SameHistory(items[id], e.items[id])
    ensures ListWellFormed(e.(items := items, predictionList := list))
  {
    PermutationKeepsNoDuplicates(Ids(list), Ids(e.predictionList));
    assert forall id :: id in Ids(list) <==> id in multiset(Ids(list));
    assert forall id :: id in Ids(e.predictionList) <==> id in multiset(Ids(e.predictionList));
  }

  /** An item on its first visit has been admitted to the list. */
  ghost predicate NewCurrentIsListed(e: AccessRank) {
    (e.mostRecentItemID != Sentinel && e.mostRecentItemID in e.items
      && e.items[e.mostRecentItemID].numberOfVisits == 1)
      ==> e.mostRecentItemID in Ids(e.predictionList)
  }

  ghost predicate Valid(e: AccessRank) {
    ListWellFormed(e) && NewCurrentIsListed(e)
  }

  lemma FreshIsValid(stability: Stability)
    ensures Valid(Fresh(stability))
    ensures MostRecentItem(Fresh(stability)) == None && Predictions(Fresh(stability)) == []
  {
  }

  // ---------------------------------------------------------------------------
  // Read-only views

  /** The current item, or none while the sentinel is current. */
  function MostRecentItem(e: AccessRank): (r: Option<string>)
    ensures r.None? <==> e.mostRecentItemID == Sentinel
    ensures r.Some? ==> r.value == e.mostRecentItemID
  {
    if e.mostRecentItemID == Sentinel then None else Some(e.mostRecentItemID)
  }

  /** `s` with every occurrence of `x` dropped, order kept. */
  function Without(s: seq<string>, x: string): (r: seq<string>)
    ensures forall y :: y in r <==> y in s && y != x
    ensures |r| <= |s|
    ensures x !in s ==> r == s
  {
    if |s| == 0 then []
    else if s[0] == x then Without(s[1..], x)
    else [s[0]] + Without(s[1..], x)
  }

  lemma {:induction false} WithoutDistinctLength(s: seq<string>, x: string)
    requires NoDuplicates(s)
    ensures |Without(s, x)| == |s| - (if x in s then 1 else 0)
  {
    if |s| > 0 {
      assert NoDuplicates(s[1..]) by {
        forall i, j | 0 <= i < j < |s[1..]| ensures s[1..][i] != s[1..][j] {
          assert s[1..][i] == s[i + 1] && s[1..][j] == s[j + 1];
        }
      }
      WithoutDistinctLength(s[1..], x);
      if s[0] == x {
        assert x !in s[1..] by {
          forall k | 0 <= k < |s[1..]| ensures s[1..][k] != x {
            assert s[1..][k] == s[k + 1];
          }
        }
      } else {
        assert s == [s[0]] + s[1..];
        assert x in s <==> x in s[1..];
      }
    }
  }

  /** Dropping a value that occurs once, at index `k`, closes the gap and keeps
      the order of the rest. */
  lemma {:induction false} WithoutSingle(s: seq<string>, x: string, k: nat)
    requires NoDuplicates(s) && k < |s| && s[k] == x
    ensures Without(s, x) == s[..k] + s[k + 1..]
  {
    var tail := s[1..];
    if k == 0 {
      assert x !in tail by {
        forall i | 0 <= i < |tail| ensures tail[i] != x {
          assert tail[i] == s[i + 1];
        }
      }
      assert Without(s, x) == Without(tail, x) == tail;
      assert s[..0] + s[1..] == tail;
    } else {
      assert s[0] != x;
      assert Without(s, x) == [s[0]] + Without(tail, x);
      assert NoDuplicates(tail) by {
        forall i, j | 0 <= i < j < |tail| ensures tail[i] != tail[j] {
          assert tail[i] == s[i + 1] && tail[j] == s[j + 1];
        }
      }
      assert tail[k - 1] == x;
      WithoutSingle(tail, x, k - 1);
      DropAtBehindHead(s, k);
    }
  }

  /** Dropping index `k > 0` keeps the head and drops index `k - 1` of the tail. */
  lemma DropAtBehindHead<T>(s: seq<T>, k: nat)
    requires 0 < k < |s|
    ensures s[..k] + s[k + 1..] == [s[0]] + (s[1..][..k - 1] + s[1..][k..])
  {
    assert s[1..][..k - 1] == s[1..k];
    assert s[1..][k..] == s[k + 1..];
    assert s[..k] == [s[0]] + s[1..k];
  }

  /** The predicted items, best first: the listed ids except the current item,
      in list order. */
  function Predictions(e: AccessRank): (r: seq<string>)
    ensures forall id :: id in r <==> id in Ids(e.predictionList) && id != e.mostRecentItemID
    ensures e.mostRecentItemID !in Ids(e.predictionList) ==> r == Ids(e.predictionList)
  {
    Without(Ids(e.predictionList), e.mostRecentItemID)
  }

  /** With distinct ids and the current item listed at index `k`, the
      predictions are the list's ids with that one entry cut out. */
  lemma PredictionsKeepListOrder(e: AccessRank, k: nat)
    requires DistinctIds(e.predictionList)
    requires k < |e.predictionList| && e.predictionList[k].id == e.mostRecentItemID
    ensures Predictions(e) == Ids(e.predictionList)[..k] + Ids(e.predictionList)[k + 1..]
  {
    WithoutSingle(Ids(e.predictionList), e.mostRecentItemID, k);
  }

  /** The predictions never offer the current item nor the sentinel. */
  lemma PredictionsExcludeCurrentAndSentinel(e: AccessRank)
    requires ListWellFormed(e)
    ensures e.mostRecentItemID !in Predictions(e)
    ensures Sentinel !in Predictions(e)
    ensures MostRecentItem(e).Some? ==> MostRecentItem(e).value !in Predictions(e)
  {
  }

  /** With distinct ids, the current item is the only listed id left out. */
  lemma PredictionCount(e: AccessRank)
    requires DistinctIds(e.predictionList)
    ensures |Predictions(e)| == |e.predictionList| - (if e.mostRecentItemID in Ids(e.predictionList) then 1 else 0)
  {
    WithoutDistinctLength(Ids(e.predictionList), e.mostRecentItemID);
  }

  // ---------------------------------------------------------------------------
  // Prediction list maintenance

  /** Every entry of `list` carries its item's score computed from `e`, the
      state after the history update. */
  ghost predicate FreshlyScored(e: AccessRank, clock: Clock, pow: Pow, list: seq<ScoredItem>)
    requires ListWellFormed(e) && Listed(e.items, list)
  {
    forall i | 0 <= i < |list| ::
      list[i].score == Score(e.items, e.mostRecentItemID, list[i].id, clock, e.useTimeWeighting, e.listStability, pow)
  }

  /** Step 1: every listed item gets its fresh score, in place. */
  function Rescore(e: AccessRank, clock: Clock, pow: Pow): (r: seq<ScoredItem>)
    requires ListWellFormed(e)
    ensures Ids(r) == Ids(e.predictionList)
    ensures Listed(e.items, r)
    ensures FreshlyScored(e, clock, pow, r)
  {
    WellFormedIsListed(e);
    var list := e.predictionList;
    seq(|list|, i requires 0 <= i < |list| =>
      ScoredItem(list[i].id, Score(e.items, e.mostRecentItemID, list[i].id, clock,
                                   e.useTimeWeighting, e.listStability, pow)))
  }

  /** Step 3: writes the positions `0 .. n - 1` of `list` into the ranks of the
      listed items, in list order. */
  function Rerank(items: map<string, ItemState>, list: seq<ScoredItem>, n: nat): (r: map<string, ItemState>)
    requires n <= |list| && Listed(items, list)
    ensures r.Keys == items.Keys
    ensures forall id | id in items :: SameHistory(r[id], items[id])
    ensures forall id | id in items && id !in Ids(list)[..n] :: r[id] == items[id]
    ensures NoDuplicates(Ids(list)) ==> forall i | 0 <= i < n :: r[list[i].id].rank == i
  {
    if n == 0 then items
    else
      var m := Rerank(items, list, n - 1);
      RerankStep(items, list, n, m);
      m[list[n - 1].id := m[list[n - 1].id].(rank := n - 1)]
  }

  /** One step of `Rerank`: writing position `n - 1` keeps what the first
      `n - 1` positions established. */
  lemma RerankStep(items: map<string, ItemState>, list: seq<ScoredItem>, n: nat, m: map<string, ItemState>)
    requires 0 < n <= |list| && Listed(items, list)
    requires m.Keys == items.Keys
    requires forall id | id in items :: SameHistory(m[id], items[id])
    requires forall id | id in items && id !in Ids(list)[..n - 1] :: m[id] == items[id]
    requires NoDuplicates(Ids(list)) ==> forall i | 0 <= i < n - 1 :: m[list[i].id].rank == i
    ensures var r := m[list[n - 1].id := m[list[n - 1].id].(rank := n - 1)];
      && r.Keys == items.Keys
      && (forall id | id in items :: SameHistory(r[id], items[id]))
      && (forall id | id in items && id !in Ids(list)[..n] :: r[id] == items[id])
      && (NoDuplicates(Ids(list)) ==> forall i | 0 <= i < n :: r[list[i].id].rank == i)
  {
    var id := list[n - 1].id;
    assert Ids(list)[..n] == Ids(list)[..n - 1] + [id];
  }

  /** Sorting moves the rescored entries around but keeps each one's score. */
  lemma SortKeepsScores(e: AccessRank, clock: Clock, pow: Pow, sorted: seq<ScoredItem>)
    requires ListWellFormed(e)
    requires multiset(sorted) == multiset(Rescore(e, clock, pow))
    requires Listed(e.items, sorted)
    ensures FreshlyScored(e, clock, pow, sorted)
  {
    var scored := Rescore(e, clock, pow);
    forall i | 0 <= i < |sorted|
      ensures sorted[i].score
        == Score(e.items, e.mostRecentItemID, sorted[i].id, clock, e.useTimeWeighting, e.listStability, pow)
    {
      assert sorted[i] in multiset(scored);
      var j :| 0 <= j < |scored| && scored[j] == sorted[i];
    }
  }

  /** Steps 1-3: rescore, sort with the stability bonus, write the ranks back. */
  function Reorder(e: AccessRank, clock: Clock, pow: Pow): (r: AccessRank)
    requires ListWellFormed(e)
    ensures ListWellFormed(r)
    ensures r == e.(items := r.items, predictionList := r.predictionList)
    ensures r.items.Keys == e.items.Keys
    ensures forall id | id in e.items :: SameHistory(r.items[id], e.items[id])
    ensures multiset(Ids(r.predictionList)) == multiset(Ids(e.predictionList))
    ensures forall i | 0 <= i < |r.predictionList| :: r.items[r.predictionList[i].id].rank == i
    ensures Listed(e.items, r.predictionList) && Ordered(e.items, e.listStability.D(), r.predictionList)
    ensures FreshlyScored(e, clock, pow, r.predictionList)
  {
    var scored := Rescore(e, clock, pow);
    var sorted := Sort(e.items, e.listStability.D(), scored);
    SortKeepsScores(e, clock, pow, sorted);
    var ranked := Rerank(e.items, sorted, |sorted|);
    SameIdsKeepWellFormed(e, ranked, sorted);
    PermutationKeepsNoDuplicates(Ids(sorted), Ids(e.predictionList));
    e.(items := ranked, predictionList := sorted)
  }

  /** Whether step 4 appends the current item: it is a real item, on its first
      visit, and not yet listed. */
  predicate Admits(e: AccessRank) {
    && e.mostRecentItemID != Sentinel
    && e.mostRecentItemID in e.items
    && e.items[e.mostRecentItemID].numberOfVisits == 1
    && e.mostRecentItemID !in Ids(e.predictionList)
  }

  /** Step 4: admits the current item on its first visit, with score 0. */
  function Admit(e: AccessRank): (r: AccessRank)
    ensures r == e.(predictionList := r.predictionList)
    ensures r.predictionList == e.predictionList + (if Admits(e) then [ScoredItem(e.mostRecentItemID, 0.0)] else [])
    ensures ListWellFormed(e) ==> ListWellFormed(r) && NewCurrentIsListed(r)
  {
    if Admits(e) then
      var r := e.(predictionList := e.predictionList + [ScoredItem(e.mostRecentItemID, 0.0)]);
      assert Ids(r.predictionList) == Ids(e.predictionList) + [e.mostRecentItemID];
      r
    else e
  }

  lemma ReorderKeepsAdmission(e: AccessRank, reordered: AccessRank)
    requires reordered == e.(items := reordered.items, predictionList := reordered.predictionList)
    requires reordered.items.Keys == e.items.Keys
    requires forall id | id in e.items :: SameHistory(reordered.items[id], e.items[id])
    requires multiset(Ids(reordered.predictionList)) == multiset(Ids(e.predictionList))
    ensures forall id :: id in Ids(reordered.predictionList) <==> id in Ids(e.predictionList)
    ensures Admits(reordered) == Admits(e)
  {
    assert forall id :: id in Ids(reordered.predictionList) <==> id in multiset(Ids(reordered.predictionList));
    assert forall id :: id in Ids(e.predictionList) <==> id in multiset(Ids(e.predictionList));
  }

  lemma AdmitIds(e: AccessRank)
    ensures Ids(Admit(e).predictionList) == Ids(e.predictionList) + (if Admits(e) then [e.mostRecentItemID] else [])
  {
  }

  /** One full update of the prediction list. */
  function UpdatePredictionList(e: AccessRank, clock: Clock, pow: Pow): (r: AccessRank)
    requires ListWellFormed(e)
    ensures Valid(r)
    ensures r == e.(items := r.items, predictionList := r.predictionList)
    ensures r.items.Keys == e.items.Keys
    ensures forall id | id in e.items :: SameHistory(r.items[id], e.items[id])
    ensures |r.predictionList| == |e.predictionList| + (if Admits(e) then 1 else 0)
    ensures forall id :: id in Ids(r.predictionList) <==>
      id in Ids(e.predictionList) || (Admits(e) && id == e.mostRecentItemID)
    ensures Admits(e) ==> r.predictionList[|e.predictionList|] == ScoredItem(e.mostRecentItemID, 0.0)
    ensures forall i | 0 <= i < |e.predictionList| :: r.items[r.predictionList[i].id].rank == i
  {
    var reordered := Reorder(e, clock, pow);
    ReorderKeepsAdmission(e, reordered);
    var r := Admit(reordered);
    AdmitIds(reordered);
    r
  }

  /** The entries listed before the update come out in comparator order, with
      the stability bonus over the ranks held before the update, and each
      carries its item's fresh score; an admitted item follows them. */
  lemma UpdateOrdersAndScores(e: AccessRank, clock: Clock, pow: Pow)
    requires ListWellFormed(e)
    ensures var r := UpdatePredictionList(e, clock, pow);
      && |e.predictionList| <= |r.predictionList|
      && Listed(e.items, r.predictionList[..|e.predictionList|])
      && Ordered(e.items, e.listStability.D(), r.predictionList[..|e.predictionList|])
      && FreshlyScored(e, clock, pow, r.predictionList[..|e.predictionList|])
  {
    var reordered := Reorder(e, clock, pow);
    ReorderKeepsAdmission(e, reordered);
    assert |reordered.predictionList| == |Ids(reordered.predictionList)| == |Ids(e.predictionList)|;
    var r := Admit(reordered);
    assert r == UpdatePredictionList(e, clock, pow);
    assert r.predictionList[..|e.predictionList|] == reordered.predictionList;
  }

  // ---------------------------------------------------------------------------
  // Visits

  /** Whether visiting `x` is its first visit (and so admits it to the list). */
  ghost predicate FirstVisit(e: AccessRank, x: string) {
    x != Sentinel && StateFor(e.items, x).numberOfVisits == 0
  }

  /** The history part of a visit to `x`: the visit counter goes up, the
      transition from the previous item to `x` is recorded in the previous
      item's state, then `x`'s own statistics are updated from the map that
      already holds that transition. */
  function RecordHistory(e: AccessRank, x: string, clock: Clock, pow: Pow): (r: AccessRank)
    requires Valid(e)
    ensures ListWellFormed(r)
    ensures Admits(r) <==> FirstVisit(e, x)
    ensures r == e.(items := r.items, visitNumber := e.visitNumber + 1, mostRecentItemID := x)
    ensures r.items.Keys == e.items.Keys + {e.mostRecentItemID, x}
    ensures TransitionsTo(r.items[e.mostRecentItemID], x)
      == TransitionsTo(StateFor(e.items, e.mostRecentItemID), x) + [ItemVisit(x, clock.hour, clock.weekday)]
    ensures r.items[e.mostRecentItemID].nextVisits - {x} == StateFor(e.items, e.mostRecentItemID).nextVisits - {x}
    ensures r.items[x].numberOfVisits == StateFor(e.items, x).numberOfVisits + 1
    ensures r.items[x].visitNumber == r.visitNumber && r.items[x].timeOfLastVisit == clock.now
    ensures forall id | id in e.items && id != e.mostRecentItemID && id != x :: r.items[id] == e.items[id]
    ensures e.mostRecentItemID != x ==>
      SameStatistics(r.items[e.mostRecentItemID], StateFor(e.items, e.mostRecentItemID))
    ensures e.mostRecentItemID != x ==> r.items[x].nextVisits == StateFor(e.items, x).nextVisits
    ensures r.items[x].rank == StateFor(e.items, x).rank
    ensures r.items[x].crfWeight == DecayedCrf(StateFor(e.items, x), r.visitNumber, pow)
  {
    var visitNumber := e.visitNumber + 1;
    var previous := e.mostRecentItemID;
    var withTransition := e.items[previous := AddVisitTo(StateFor(e.items, previous), x, clock.hour, clock.weekday)];
    var visited := UpdateVisits(StateFor(withTransition, x), visitNumber, clock.now, pow);
    VisitedKeepsStatistics(StateFor(e.items, x), StateFor(withTransition, x), visitNumber, clock.now, pow);
    var items := withTransition[x := visited];
    e.(items := items, visitNumber := visitNumber, mostRecentItemID := x)
  }

  /** Counting a visit on a state that differs from `before` at most in its
      transitions starts from `before`'s statistics. */
  lemma VisitedKeepsStatistics(before: ItemState, st: ItemState, visitNumber: int, now: real, pow: Pow)
    requires SameStatistics(st, before)
    ensures var r := UpdateVisits(st, visitNumber, now, pow);
      && r.numberOfVisits == before.numberOfVisits + 1
      && r.rank == before.rank
      && r.crfWeight == DecayedCrf(before, visitNumber, pow)
  {
    assert st.numberOfVisits == before.numberOfVisits && st.rank == before.rank;
    assert st.crfWeight == before.crfWeight && st.visitNumber == before.visitNumber;
  }

  /** `visitItem` with an item: records the visit and updates the list. The
      list grows by the visited item exactly on its first visit. */
  function RecordVisit(e: AccessRank, x: string, clock: Clock, pow: Pow): (r: AccessRank)
    requires Valid(e)
    ensures Valid(r)
    ensures r.visitNumber == e.visitNumber + 1
    ensures r.mostRecentItemID == x
    ensures r.listStability == e.listStability && r.useTimeWeighting == e.useTimeWeighting
    ensures r.items.Keys == e.items.Keys + {e.mostRecentItemID, x}
    ensures |r.predictionList| == |e.predictionList| + (if FirstVisit(e, x) then 1 else 0)
    ensures forall id :: id in Ids(r.predictionList) <==>
      id in Ids(e.predictionList) || (FirstVisit(e, x) && id == x)
  {
    UpdatePredictionList(RecordHistory(e, x, clock, pow), clock, pow)
  }

  /** What a visit to `x` records: one more transition from the previous item
      to `x` (its other transitions and statistics untouched), one more visit
      of `x` stamped with the new visit number and the time and its CRF weight
      decayed and bumped, every other item's history unchanged, and the
      previously listed items rescored, sorted and ranked by position. */
  lemma VisitRecordsHistory(e: AccessRank, x: string, clock: Clock, pow: Pow)
    requires Valid(e)
    ensures var r := RecordVisit(e, x, clock, pow);
      && TransitionsTo(r.items[e.mostRecentItemID], x)
           == TransitionsTo(StateFor(e.items, e.mostRecentItemID), x) + [ItemVisit(x, clock.hour, clock.weekday)]
      && r.items[e.mostRecentItemID].nextVisits - {x} == StateFor(e.items, e.mostRecentItemID).nextVisits - {x}
      && r.items[x].numberOfVisits == StateFor(e.items, x).numberOfVisits + 1
      && r.items[x].visitNumber == r.visitNumber && r.items[x].timeOfLastVisit == clock.now
      && r.items[x].crfWeight == DecayedCrf(StateFor(e.items, x), r.visitNumber, pow)
      && (e.mostRecentItemID != x ==>
           && r.items[x].nextVisits == StateFor(e.items, x).nextVisits
           && r.items[e.mostRecentItemID].numberOfVisits == StateFor(e.items, e.mostRecentItemID).numberOfVisits
           && r.items[e.mostRecentItemID].crfWeight == StateFor(e.items, e.mostRecentItemID).crfWeight
           && r.items[e.mostRecentItemID].visitNumber == StateFor(e.items, e.mostRecentItemID).visitNumber
           && r.items[e.mostRecentItemID].timeOfLastVisit == StateFor(e.items, e.mostRecentItemID).timeOfLastVisit)
      && (forall id | id in e.items && id != e.mostRecentItemID && id != x :: SameHistory(r.items[id], e.items[id]))
      && (forall i | 0 <= i < |e.predictionList| :: r.items[r.predictionList[i].id].rank == i)
      && |e.predictionList| <= |r.predictionList|
      && Listed(RecordHistory(e, x, clock, pow).items, r.predictionList[..|e.predictionList|])
      && Ordered(RecordHistory(e, x, clock, pow).items, e.listStability.D(), r.predictionList[..|e.predictionList|])
      && FreshlyScored(RecordHistory(e, x, clock, pow), clock, pow, r.predictionList[..|e.predictionList|])
  {
    var recorded := RecordHistory(e, x, clock, pow);
    var r := UpdatePredictionList(recorded, clock, pow);
    UpdateOrdersAndScores(recorded, clock, pow);
    assert r == RecordVisit(e, x, clock, pow);
    var prev := e.mostRecentItemID;
    assert SameHistory(r.items[prev], recorded.items[prev]);
    assert SameHistory(r.items[x], recorded.items[x]);
    assert r.items[x].crfWeight == recorded.items[x].crfWeight;
    if prev != x {
      assert SameStatistics(recorded.items[prev], StateFor(e.items, prev));
      assert recorded.items[prev].numberOfVisits == StateFor(e.items, prev).numberOfVisits;
    }
  }

  /** `visitItem`: with no item only the current item is cleared; otherwise the
      visit is recorded. */
  function VisitItem(e: AccessRank, item: Option<string>, clock: Clock, pow: Pow): (r: AccessRank)
    requires Valid(e)
    ensures Valid(r)
    ensures item.None? ==>
      && r.items == e.items && r.predictionList == e.predictionList
      && r.visitNumber == e.visitNumber && MostRecentItem(r) == None
    ensures item.Some? ==> r.visitNumber == e.visitNumber + 1 && MostRecentItem(r) == (if item.value == Sentinel then None else item)
  {
    match item
    case None => e.(mostRecentItemID := Sentinel)
    case Some(x) => RecordVisit(e, x, clock, pow)
  }

  /** Revisiting the current item records the self-transition and counts the
      visit: neither update overwrites the other. */
  lemma SelfVisitKeepsBothUpdates(e: AccessRank, clock: Clock, pow: Pow)
    requires Valid(e)
    ensures var r := RecordVisit(e, e.mostRecentItemID, clock, pow);
      && |TransitionsTo(r.items[e.mostRecentItemID], e.mostRecentItemID)|
           == |TransitionsTo(StateFor(e.items, e.mostRecentItemID), e.mostRecentItemID)| + 1
      && r.items[e.mostRecentItemID].numberOfVisits == StateFor(e.items, e.mostRecentItemID).numberOfVisits + 1
  {
    VisitRecordsHistory(e, e.mostRecentItemID, clock, pow);
  }

  // ---------------------------------------------------------------------------
  // Removal

  /** `list` without the first entry for `id`. */
  function RemoveFirst(list: seq<ScoredItem>, id: string): (r: seq<ScoredItem>)
    ensures multiset(Ids(r)) == multiset(Ids(list)) - multiset{id}
  {
    if |list| == 0 then []
    else
      IdsOfTail(list);
      if list[0].id == id then list[1..]
      else
        var rest := RemoveFirst(list[1..], id);
        IdsOfCons(list[0], rest);
        [list[0]] + rest
  }

  /** The entry removed is the first one for `id`, at index `k`; the others
      keep their order. */
  lemma {:induction false} RemoveFirstAt(list: seq<ScoredItem>, id: string, k: nat)
    requires k < |list| && list[k].id == id
    requires forall j | 0 <= j < k :: list[j].id != id
    ensures RemoveFirst(list, id) == list[..k] + list[k + 1..]
  {
    if k > 0 {
      var tail := list[1..];
      assert RemoveFirst(list, id) == [list[0]] + RemoveFirst(tail, id);
      forall j | 0 <= j < k - 1 ensures tail[j].id != id {
        assert tail[j] == list[j + 1];
      }
      RemoveFirstAt(tail, id, k - 1);
      DropAtBehindHead(list, k);
    }
  }

  /** An id that is not listed leaves the list as it is. */
  lemma RemoveFirstAbsent(list: seq<ScoredItem>, id: string)
    requires id !in Ids(list)
    ensures RemoveFirst(list, id) == list
  {
    forall x | x in list ensures x.id != id {
      var i :| 0 <= i < |list| && list[i] == x;
      assert Ids(list)[i] == x.id;
    }
    RemoveFirstNoMatch(list, id);
  }

  lemma {:induction false} RemoveFirstNoMatch(list: seq<ScoredItem>, id: string)
    requires forall x | x in list :: x.id != id
    ensures RemoveFirst(list, id) == list
  {
    if |list| > 0 {
      var tail := list[1..];
      assert list[0] in list;
      assert RemoveFirst(list, id) == [list[0]] + RemoveFirst(tail, id);
      RemoveFirstNoMatch(tail, id);
      HeadTail(list);
    }
  }

  lemma HeadTail<T>(s: seq<T>)
    requires |s| > 0
    ensures s == [s[0]] + s[1..]
  {
  }



  /** From a list with distinct ids, removing the first entry for `id` removes
      exactly `id`, and the ids stay distinct. */
  lemma RemoveFirstFromDistinct(list: seq<ScoredItem>, id: string)
    requires DistinctIds(list)
    ensures DistinctIds(RemoveFirst(list, id))
    ensures forall other :: other in Ids(RemoveFirst(list, id)) <==> other in Ids(list) && other != id
  {
    var r := RemoveFirst(list, id);
    NoDuplicatesIffSingleOccurrences(Ids(list));
    NoDuplicatesIffSingleOccurrences(Ids(r));
    assert forall other :: other in Ids(r) <==> other in multiset(Ids(r));
    assert forall other :: other in Ids(list) <==> other in multiset(Ids(list));
  }

  /** `removeItem`: drops the state of `id`, every transition to `id`, and its
      list entry. */
  function RemoveItem(e: AccessRank, id: string): (r: AccessRank)
    requires ListWellFormed(e)
    ensures ListWellFormed(r)
    ensures r == e.(items := r.items, predictionList := r.predictionList)
    ensures r.items.Keys == e.items.Keys - {id}
    ensures forall k | k in r.items ::
      r.items[k] == e.items[k].(nextVisits := e.items[k].nextVisits - {id})
    ensures forall other :: other in Ids(r.predictionList) <==> other in Ids(e.predictionList) && other != id
  {
    var items := map k | k in e.items && k != id :: RemoveVisitsTo(e.items[k], id);
    var list := RemoveFirst(e.predictionList, id);
    RemoveFirstFromDistinct(e.predictionList, id);
    e.(items := items, predictionList := list)
  }

  /** Two states agree on everything except their transitions. */
  ghost predicate SameStatistics(a: ItemState, b: ItemState) {
    a.(nextVisits := map[]) == b.(nextVisits := map[])
  }

  /** The effect of removing the ids of `gone` from `e`, as seen in `r`. */
  ghost predicate RemovedFrom(e: AccessRank, r: AccessRank, gone: set<string>) {
    && r == e.(items := r.items, predictionList := r.predictionList)
    && r.items.Keys == e.items.Keys - gone
    && (forall k | k in r.items :: r.items[k].nextVisits == e.items[k].nextVisits - gone)
    && (forall k | k in r.items :: SameStatistics(r.items[k], e.items[k]))
    && (forall other :: other in Ids(r.predictionList) <==> other in Ids(e.predictionList) && other !in gone)
  }

  lemma RemovedFromComposes(e: AccessRank, mid: AccessRank, r: AccessRank, a: set<string>, b: set<string>)
    requires RemovedFrom(e, mid, a) && RemovedFrom(mid, r, b)
    ensures RemovedFrom(e, r, a + b)
  {
    forall k | k in r.items ensures r.items[k].nextVisits == e.items[k].nextVisits - (a + b) {
      assert r.items[k].nextVisits == (e.items[k].nextVisits - a) - b;
    }
  }

  /** Removes each id of `ids` in turn. */
  function RemoveAll(e: AccessRank, ids: seq<string>): (r: AccessRank)
    requires ListWellFormed(e)
    ensures ListWellFormed(r)
    ensures RemovedFrom(e, r, set id | id in ids)
    decreases |ids|
  {
    if |ids| == 0 then
      assert forall k | k in e.items :: e.items[k].nextVisits - (set id | id in ids) == e.items[k].nextVisits;
      e
    else
      var first := RemoveItem(e, ids[0]);
      assert RemovedFrom(e, first, {ids[0]});
      var r := RemoveAll(first, ids[1..]);
      RemovedFromComposes(e, first, r, {ids[0]}, set id | id in ids[1..]);
      assert (set id | id in ids) == {ids[0]} + set id | id in ids[1..];
      r
  }

  lemma RemovalAdmitsNothing(e: AccessRank, ids: seq<string>, removed: AccessRank, cleared: AccessRank)
    requires Valid(e)
    requires removed == RemoveAll(e, ids)
    requires cleared == if e.mostRecentItemID in ids then removed.(mostRecentItemID := Sentinel) else removed
    ensures !Admits(cleared)
  {
    var current := e.mostRecentItemID;
    if current !in ids && current != Sentinel && current in removed.items {
      assert SameStatistics(removed.items[current], e.items[current]);
      assert removed.items[current].numberOfVisits == e.items[current].numberOfVisits;
    }
  }

  /** The state `removeItems` hands to the list update: every id of `ids`
      removed, and no current item when it was one of them. */
  function Cleared(e: AccessRank, ids: seq<string>): (c: AccessRank)
    requires Valid(e)
    ensures ListWellFormed(c) && !Admits(c)
    ensures RemovedFrom(e, c.(mostRecentItemID := e.mostRecentItemID), set id | id in ids)
    ensures c.mostRecentItemID == if e.mostRecentItemID in ids then Sentinel else e.mostRecentItemID
  {
    var removed := RemoveAll(e, ids);
    var cleared := if e.mostRecentItemID in ids then removed.(mostRecentItemID := Sentinel) else removed;
    RemovalAdmitsNothing(e, ids, removed, cleared);
    cleared
  }

  /** `removeItems`: removes every id of `ids`, clears the current item when it
      is one of them, and updates the list. */
  function RemoveItems(e: AccessRank, ids: seq<string>, clock: Clock, pow: Pow): (r: AccessRank)
    requires Valid(e)
    ensures Valid(r)
    ensures r.visitNumber == e.visitNumber
    ensures r.listStability == e.listStability && r.useTimeWeighting == e.useTimeWeighting
    ensures r.items.Keys == e.items.Keys - (set id | id in ids)
    ensures forall id | id in ids :: forall k | k in r.items :: id !in r.items[k].nextVisits
    ensures forall k | k in r.items :: SameHistory(r.items[k],
      e.items[k].(nextVisits := e.items[k].nextVisits - (set id | id in ids)))
    ensures forall id | id in ids :: id !in Ids(r.predictionList) && id !in Predictions(r)
    ensures forall id | id !in ids :: id in Ids(r.predictionList) <==> id in Ids(e.predictionList)
    ensures e.mostRecentItemID in ids ==> MostRecentItem(r) == None
    ensures e.mostRecentItemID !in ids ==> r.mostRecentItemID == e.mostRecentItemID
    ensures forall i | 0 <= i < |r.predictionList| :: r.items[r.predictionList[i].id].rank == i
    ensures Listed(Cleared(e, ids).items, r.predictionList)
    ensures Ordered(Cleared(e, ids).items, e.listStability.D(), r.predictionList)
    ensures FreshlyScored(Cleared(e, ids), clock, pow, r.predictionList)
  {
    var cleared := Cleared(e, ids);
    UpdateOrdersAndScores(cleared, clock, pow);
    UpdatePredictionList(cleared, clock, pow)
  }
}

=== FILE: findings.dfy ===
/** Two defects of the original's list admission, modelled as written next to
    the corrected admission that the engine model uses.

    As written, step 4 of the list update force-unwraps the current item's
    state before testing anything, and appends the current item whenever its
    visit count is one. `removeItems` runs the same update. So removing items
    from an engine that was never visited traps (the sentinel has no state
    yet), and removing other items while the current item is on its first
    visit appends it a second time. */
module Findings {
  import opened Wrappers
  import opened Items
  import opened Scores
  import opened Ordering
  import opened Engine

  /** The test of step 4 as written: the current item is a real item on its
      first visit, whether it is listed or not. */
  predicate AdmitsAsWritten(e: AccessRank) {
    && e.mostRecentItemID != Sentinel
    && e.mostRecentItemID in e.items
    && e.items[e.mostRecentItemID].numberOfVisits == 1
  }

  /** Step 4 as written; `None` is the trap of the forced unwrap. */
  function AdmitAsWritten(e: AccessRank): (r: Option<AccessRank>)
    ensures r.None? <==> e.mostRecentItemID !in e.items
    ensures r.Some? ==> r.value == e.(predictionList := r.value.predictionList)
    ensures r.Some? ==>
      r.value.predictionList == e.predictionList + (if AdmitsAsWritten(e) then [ScoredItem(e.mostRecentItemID, 0.0)] else [])
  {
    if e.mostRecentItemID !in e.items then None
    else if e.mostRecentItemID != Sentinel && e.items[e.mostRecentItemID].numberOfVisits == 1 then
      Some(e.(predictionList := e.predictionList + [ScoredItem(e.mostRecentItemID, 0.0)]))
    else Some(e)
  }

  /** As written, a current item that already holds a list entry and is on its
      first visit gets a second entry. */
  lemma AdmitAsWrittenDuplicates(e: AccessRank)
    requires AdmitsAsWritten(e) && e.mostRecentItemID in Ids(e.predictionList)
    ensures AdmitAsWritten(e) == Some(e.(predictionList := e.predictionList + [ScoredItem(e.mostRecentItemID, 0.0)]))
    ensures !DistinctIds(AdmitAsWritten(e).value.predictionList)
  {
    var list := e.predictionList + [ScoredItem(e.mostRecentItemID, 0.0)];
    IdsOfAppend(e.predictionList, ScoredItem(e.mostRecentItemID, 0.0));
    var k :| 0 <= k < |e.predictionList| && Ids(e.predictionList)[k] == e.mostRecentItemID;
    assert Ids(list)[k] == Ids(list)[|e.predictionList|];
  }

  /** The list update as written: it traps exactly when the current item has
      no state, and otherwise lists the current item whenever it is a real item
      on its first visit, listed already or not. */
  function UpdatePredictionListAsWritten(e: AccessRank, clock: Clock, pow: Pow): (r: Option<AccessRank>)
    requires ListWellFormed(e)
    ensures r.None? <==> e.mostRecentItemID !in e.items
    ensures r.Some? ==> |r.value.predictionList| == |e.predictionList| + (if AdmitsAsWritten(e) then 1 else 0)
    ensures r.Some? ==> forall id :: id in Ids(r.value.predictionList) <==>
      id in Ids(e.predictionList) || (AdmitsAsWritten(e) && id == e.mostRecentItemID)
  {
    var reordered := Reorder(e, clock, pow);
    ReorderKeepsAdmission(e, reordered);
    if e.mostRecentItemID in e.items then
      assert SameHistory(reordered.items[e.mostRecentItemID], e.items[e.mostRecentItemID]);
      assert |reordered.predictionList| == |Ids(reordered.predictionList)| == |Ids(e.predictionList)|;
      IdsOfAppend(reordered.predictionList, ScoredItem(e.mostRecentItemID, 0.0));
      AdmitAsWritten(reordered)
    else AdmitAsWritten(reordered)
  }

  /** `removeItems` with the admission step as written. */
  function RemoveItemsAsWritten(e: AccessRank, ids: seq<string>, clock: Clock, pow: Pow): (r: Option<AccessRank>)
    requires ListWellFormed(e)
    ensures r.None? <==>
      if e.mostRecentItemID in ids then Sentinel !in e.items || Sentinel in ids else e.mostRecentItemID !in e.items
    ensures r.Some? ==> forall id | id in ids :: id !in Ids(r.value.predictionList)
  {
    var removed := RemoveAll(e, ids);
    var cleared := if e.mostRecentItemID in ids then removed.(mostRecentItemID := Sentinel) else removed;
    UpdatePredictionListAsWritten(cleared, clock, pow)
  }

  /** `visitItem` with the admission step as written. */
  function VisitItemAsWritten(e: AccessRank, item: Option<string>, clock: Clock, pow: Pow): (r: Option<AccessRank>)
    requires Valid(e)
    ensures r.Some?
    ensures r.value.mostRecentItemID == (if item.Some? then item.value else Sentinel)
    ensures r.value.visitNumber == e.visitNumber + (if item.Some? then 1 else 0)
    ensures item.None? ==> r.value.predictionList == e.predictionList
  {
    match item
    case None => Some(e.(mostRecentItemID := Sentinel))
    case Some(x) => UpdatePredictionListAsWritten(RecordHistory(e, x, clock, pow), clock, pow)
  }

  /** As written, removing anything from a never-visited engine traps. */
  lemma FreshRemovalTraps(stability: Stability, ids: seq<string>, clock: Clock, pow: Pow)
    ensures RemoveItemsAsWritten(Fresh(stability), ids, clock, pow) == None
  {
  }

  /** Corrected, it leaves the engine as it was. */
  lemma FreshRemovalIsNoOp(stability: Stability, ids: seq<string>, clock: Clock, pow: Pow)
    ensures RemoveItems(Fresh(stability), ids, clock, pow) == Fresh(stability)
  {
    var r := RemoveItems(Fresh(stability), ids, clock, pow);
    assert r.items.Keys == {};

  }

  /** A sequence with no duplicates that holds `x` and nothing else is `[x]`. */
  lemma OnlyElement(s: seq<string>, x: string)
    requires NoDuplicates(s)
    requires x in s && forall y | y in s :: y == x
    ensures s == [x]
  {
    FirstTwo(s);
  }

  lemma FirstTwo(s: seq<string>)
    ensures |s| >= 1 ==> s[0] in s
    ensures |s| >= 2 ==> s[1] in s && (NoDuplicates(s) ==> s[0] != s[1])
  {
  }

  lemma SingletonMultiset(s: seq<string>, x: string)
    requires multiset(s) == multiset{x}
    ensures s == [x]
  {
    assert |s| == 1;
    assert s[0] in multiset(s);
  }

  /** After a first visit to "A", the list holds exactly "A" and "A" is on its
      first visit. */
  lemma FirstVisitToA(stability: Stability, clock: Clock, pow: Pow)
    ensures var e := VisitItem(Fresh(stability), Some("A"), clock, pow);
      && Valid(e) && e.mostRecentItemID == "A"
      && Ids(e.predictionList) == ["A"]
      && "A" in e.items && e.items["A"].numberOfVisits == 1
  {
    FreshIsValid(stability);
    var e := VisitItem(Fresh(stability), Some("A"), clock, pow);
    OnlyElement(Ids(e.predictionList), "A");
  }

  /** Removing "B" after a first visit to "A" leaves "A" listed once and on
      its first visit. */
  lemma RemovingBKeepsA(e: AccessRank)
    requires ListWellFormed(e) && e.mostRecentItemID == "A"
    requires Ids(e.predictionList) == ["A"]
    requires "A" in e.items && e.items["A"].numberOfVisits == 1
    ensures var removed := RemoveAll(e, ["B"]);
      && ListWellFormed(removed) && removed.mostRecentItemID == "A"
      && Ids(removed.predictionList) == ["A"]
      && "A" in removed.items && removed.items["A"].numberOfVisits == 1
  {
    var removed := RemoveAll(e, ["B"]);
    assert (set id | id in ["B"]) == {"B"};
    assert SameStatistics(removed.items["A"], e.items["A"]);
    OnlyElement(Ids(removed.predictionList), "A");
  }

  /** As written, the admission after that removal appends "A" again. */
  lemma ReadmitsA(removed: AccessRank, clock: Clock, pow: Pow)
    requires ListWellFormed(removed) && removed.mostRecentItemID == "A"
    requires Ids(removed.predictionList) == ["A"]
    requires "A" in removed.items && removed.items["A"].numberOfVisits == 1
    ensures var r := UpdatePredictionListAsWritten(removed, clock, pow);
      r.Some? && Ids(r.value.predictionList) == ["A", "A"]
  {
    var reordered := Reorder(removed, clock, pow);
    SingletonMultiset(Ids(reordered.predictionList), "A");
    assert SameHistory(reordered.items["A"], removed.items["A"]);
    var r := AdmitAsWritten(reordered);
    assert r.Some? && r.value.predictionList == reordered.predictionList + [ScoredItem("A", 0.0)];
    IdsOfAppend(reordered.predictionList, ScoredItem("A", 0.0));
  }

  lemma IdsOfAppend(list: seq<ScoredItem>, x: ScoredItem)
    ensures Ids(list + [x]) == Ids(list) + [x.id]
  {
  }

  /** As written, removing an unrelated item while "A" is on its first visit
      lists "A" twice. */
  lemma RemovalReadmitsNewItem(stability: Stability, c1: Clock, c2: Clock, pow: Pow)
    ensures var e := VisitItem(Fresh(stability), Some("A"), c1, pow);
      && RemoveItemsAsWritten(e, ["B"], c2, pow).Some?
      && Ids(RemoveItemsAsWritten(e, ["B"], c2, pow).value.predictionList) == ["A", "A"]
  {
    FirstVisitToA(stability, c1, pow);
    var e := VisitItem(Fresh(stability), Some("A"), c1, pow);
    RemovingBKeepsA(e);
    ReadmitsA(RemoveAll(e, ["B"]), c2, pow);
  }

  /** Corrected, the same removal keeps "A" listed once. */
  lemma RemovalKeepsNewItemOnce(stability: Stability, c1: Clock, c2: Clock, pow: Pow)
    ensures var e := VisitItem(Fresh(stability), Some("A"), c1, pow);
      Ids(RemoveItems(e, ["B"], c2, pow).predictionList) == ["A"]
  {
    FirstVisitToA(stability, c1, pow);
    var e := VisitItem(Fresh(stability), Some("A"), c1, pow);
    var r := RemoveItems(e, ["B"], c2, pow);
    assert "A" in Ids(r.predictionList);
    assert "B" in ["B"];
    forall id | id in Ids(r.predictionList) ensures id == "A" {
      assert id != "B";
      assert id !in ["B"];
    }
    OnlyElement(Ids(r.predictionList), "A");
  }

  /** On a visit the correction changes nothing: the visited item is on its
      first visit exactly when it is not listed yet. */
  lemma CorrectionInvisibleToVisits(e: AccessRank, item: Option<string>, clock: Clock, pow: Pow)
    requires Valid(e)
    ensures VisitItemAsWritten(e, item, clock, pow) == Some(VisitItem(e, item, clock, pow))
  {
    if item.Some? {
      var x := item.value;
      var recorded := RecordHistory(e, x, clock, pow);
      var reordered := Reorder(recorded, clock, pow);
      ReorderKeepsAdmission(recorded, reordered);
      assert SameHistory(reordered.items[x], recorded.items[x]);
    }
  }
}

=== FILE: items.dfy ===
/** Per-item records of the prediction engine: the transition history kept by
    each item, its visit statistics, and the scored entries of the prediction list. */
module Items {

  /** Stands for the C library `pow` on doubles; the model does not interpret it. */
  type Pow = (real, real) -> real

  /** The clock and calendar readings an operation sees: hour of day (0-23),
      weekday (1-7) and the current time in seconds. */
  datatype Clock = Clock(hour: int, weekday: int, now: real)

  /** Swift's `Int.max` on a 64-bit platform: the rank of an item never ranked. */
  const Unranked: int := 0x7FFF_FFFF_FFFF_FFFF

  /** One observed transition to item `id`, stamped with the clock hour (0-23)
      and calendar weekday (1-7) at which it happened. */
  datatype ItemVisit = ItemVisit(id: string, hour: int, weekday: int)

  /** The history of one item. `nextVisits[t]` lists, oldest first, the
      transitions from this item to item `t`. `visitNumber` is the engine's visit
      counter at this item's last visit (the reference point of the decay). */
  datatype ItemState = ItemState(
    nextVisits: map<string, seq<ItemVisit>>,
    visitNumber: int,
    numberOfVisits: int,
    timeOfLastVisit: real,
    crfWeight: real,
    rank: int)

  /** An entry of the prediction list. */
  datatype ScoredItem = ScoredItem(id: string, score: real)

  /** The state of an item that has never been seen. */
  function NewItemState(): ItemState {
    ItemState(map[], 0, 0, 0.0, 0.0, Unranked)
  }

  /** The transitions recorded from `st` to `item`, empty when there are none. */
  function TransitionsTo(st: ItemState, item: string): seq<ItemVisit> {
    if item in st.nextVisits then st.nextVisits[item] else []
  }

  /** Two states agree on everything except their rank. */
  ghost predicate SameHistory(a: ItemState, b: ItemState) {
    && a.nextVisits == b.nextVisits
    && a.visitNumber == b.visitNumber
    && a.numberOfVisits == b.numberOfVisits
    && a.timeOfLastVisit == b.timeOfLastVisit
    && a.crfWeight == b.crfWeight
  }

  /** Records one more transition from `st` to `item`. */
  function AddVisitTo(st: ItemState, item: string, hour: int, weekday: int): (r: ItemState)
    ensures TransitionsTo(r, item) == TransitionsTo(st, item) + [ItemVisit(item, hour, weekday)]
    ensures r.nextVisits - {item} == st.nextVisits - {item}
    ensures r.(nextVisits := st.nextVisits) == st
  {
    st.(nextVisits := st.nextVisits[item := TransitionsTo(st, item) + [ItemVisit(item, hour, weekday)]])
  }

  /** Forgets every transition from `st` to `item`. */
  function RemoveVisitsTo(st: ItemState, item: string): (r: ItemState)
    ensures item !in r.nextVisits
    ensures r.nextVisits - {item} == st.nextVisits - {item}
    ensures r.(nextVisits := st.nextVisits) == st
  {
    st.(nextVisits := st.nextVisits - {item})
  }

  /** Forgetting the transitions to `item` also forgets one just recorded:
      removal undoes any number of additions. */
  lemma RemoveUndoesAdd(st: ItemState, item: string, hour: int, weekday: int)
    ensures RemoveVisitsTo(AddVisitTo(st, item, hour, weekday), item) == RemoveVisitsTo(st, item)
  {
  }

  /** The recency/frequency weight of `st` after a visit numbered
      `visitNumber`: the old weight decayed by 2^(-0.1 * visits elapsed since
      the last one), plus one. */
  function DecayedCrf(st: ItemState, visitNumber: int, pow: Pow): real {
    pow(2.0, -0.1 * (visitNumber - st.visitNumber) as real) * st.crfWeight + 1.0
  }

  /** Registers a visit to the item as the engine's visit number `visitNumber`,
      at time `now`: one more visit, and the recency/frequency weight decayed by
      2^(-0.1 * visits elapsed since the last one) before one is added. */
  function UpdateVisits(st: ItemState, visitNumber: int, now: real, pow: Pow): (r: ItemState)
    ensures r.numberOfVisits == st.numberOfVisits + 1
    ensures r.visitNumber == visitNumber && r.timeOfLastVisit == now
    ensures r.crfWeight == pow(2.0, -0.1 * (visitNumber - st.visitNumber) as real) * st.crfWeight + 1.0
    ensures r.nextVisits == st.nextVisits && r.rank == st.rank
  {
    var decay := pow(2.0, -0.1 * (visitNumber - st.visitNumber) as real);
    st.(numberOfVisits := st.numberOfVisits + 1,
        timeOfLastVisit := now,
        crfWeight := decay * st.crfWeight + 1.0,
        visitNumber := visitNumber)
  }

  /** The ids of a list of scored items, in list order. */
  function Ids(list: seq<ScoredItem>): (r: seq<string>)
    ensures |r| == |list|
    ensures forall i | 0 <= i < |list| :: r[i] == list[i].id
  {
    seq(|list|, i requires 0 <= i < |list| => list[i].id)
  }

  lemma IdsOfCons(a: ScoredItem, list: seq<ScoredItem>)
    ensures Ids([a] + list) == [a.id] + Ids(list)
  {
  }

  lemma IdsOfTail(list: seq<ScoredItem>)
    requires |list| > 0
    ensures Ids(list) == [list[0].id] + Ids(list[1..])
  {
  }

  ghost predicate NoDuplicates(s: seq<string>) {
    forall i, j | 0 <= i < j < |s| :: s[i] != s[j]
  }

  /** A sequence has no duplicates exactly when every value occurs at most once
      in its multiset, so permutations keep (or lose) the property together. */
  lemma {:induction false} NoDuplicatesIffSingleOccurrences(s: seq<string>)
    ensures NoDuplicates(s) <==> forall v :: multiset(s)[v] <= 1
  {
    if |s| == 0 {
    } else {
      var t := s[1..];
      assert s == [s[0]] + t;
      assert multiset(s) == multiset{s[0]} + multiset(t);
      NoDuplicatesIffSingleOccurrences(t);
      if NoDuplicates(s) {
        assert s[0] !in t by {
          forall k | 0 <= k < |t| ensures t[k] != s[0] {
            assert t[k] == s[k + 1];
          }
        }
        assert NoDuplicates(t) by {
          forall i, j | 0 <= i < j < |t| ensures t[i] != t[j] {
            assert t[i] == s[i + 1] && t[j] == s[j + 1];
          }
        }
      } else {
        var i, j :| 0 <= i < j < |s| && s[i] == s[j];
        if i == 0 {
          assert s[j] == t[j - 1];
          assert multiset(s)[s[0]] >= 2;
        } else {
          assert t[i - 1] == t[j - 1];
          assert !NoDuplicates(t);
          var v :| multiset(t)[v] > 1;
          assert multiset(s)[v] > 1;
        }
      }
    }
  }

  lemma PermutationKeepsNoDuplicates(a: seq<string>, b: seq<string>)
    requires multiset(a) == multiset(b)
    ensures NoDuplicates(a) <==> NoDuplicates(b)
  {
    NoDuplicatesIffSingleOccurrences(a);
    NoDuplicatesIffSingleOccurrences(b);
  }

  /** The ids of the list are pairwise different. */
  ghost predicate DistinctIds(list: seq<ScoredItem>) {
    NoDuplicates(Ids(list))
  }
}

=== FILE: ordering.dfy ===
/** The stability-aware comparator of the prediction list and the sort that
    uses it. The original hands the comparator to the library sort; the model
    sorts by insertion, which returns a permutation of the list in comparator
    order. The library's exact order is not modelled. */
module Ordering {
  import opened Items

  /** Every entry of `list` has a state in `items`. */
  ghost predicate Listed(items: map<string, ItemState>, list: seq<ScoredItem>) {
    forall i | 0 <= i < |list| :: list[i].id in items
  }

  lemma ListedByIds(items: map<string, ItemState>, list: seq<ScoredItem>)
    requires forall id | id in Ids(list) :: id in items
    ensures Listed(items, list)
  {
    forall i | 0 <= i < |list| ensures list[i].id in items {
      assert Ids(list)[i] in Ids(list);
    }
  }

  /** Whether `a` sorts before `b`. When the better-ranked of the two (lower
      previous rank) now scores strictly lower, it gets the bonus `d`; equal
      adjusted scores are decided by the more recent last visit. */
  function Before(items: map<string, ItemState>, d: real, a: ScoredItem, b: ScoredItem): (r: bool)
    requires a.id in items && b.id in items
    // With no bonus (low stability) the order is plain descending score, ties
    // going to the more recently visited item.
    ensures d == 0.0 ==>
      (r <==> if a.score == b.score then items[a.id].timeOfLastVisit > items[b.id].timeOfLastVisit
              else a.score > b.score)
    // Equal scores get no bonus: the ranks do not matter.
    ensures a.score == b.score ==> (r <==> items[a.id].timeOfLastVisit > items[b.id].timeOfLastVisit)
    // A better-ranked item stays ahead of one that beats it by less than the bonus.
    ensures items[a.id].rank < items[b.id].rank && a.score != b.score && a.score + d > b.score ==> r
    // Overtaking a better-ranked item needs a score lead of more than the bonus.
    ensures d >= 0.0 && items[b.id].rank < items[a.id].rank && a.score > b.score + d ==> r
    // A lead of exactly the bonus ties, and the more recent visit decides.
    ensures items[b.id].rank < items[a.id].rank && b.score < a.score && a.score == b.score + d ==>
      (r <==> items[a.id].timeOfLastVisit > items[b.id].timeOfLastVisit)
    ensures d >= 0.0 && items[a.id].rank < items[b.id].rank && b.score > a.score && a.score + d < b.score ==> !r
  {
    var itemA, itemB := items[a.id], items[b.id];
    var bonusA := itemA.rank < itemB.rank && b.score > a.score;
    var bonusB := !bonusA && itemA.rank > itemB.rank && b.score < a.score;
    var scoreA := if bonusA then a.score + d else a.score;
    var scoreB := if bonusB then b.score + d else b.score;
    if scoreA == scoreB then itemA.timeOfLastVisit > itemB.timeOfLastVisit else scoreA > scoreB
  }

  /** The comparator never puts an item before itself. */
  lemma BeforeIsIrreflexive(items: map<string, ItemState>, d: real, a: ScoredItem)
    requires a.id in items
    ensures !Before(items, d, a, a)
  {
  }

  /** The bonus goes to the same item whichever way round the pair is asked,
      so the comparator never prefers both. */
  lemma BeforeIsAsymmetric(items: map<string, ItemState>, d: real, a: ScoredItem, b: ScoredItem)
    requires a.id in items && b.id in items
    ensures Before(items, d, a, b) ==> !Before(items, d, b, a)
  {
  }

  /** No neighbouring pair is one the comparator would swap. */
  ghost predicate Ordered(items: map<string, ItemState>, d: real, list: seq<ScoredItem>)
    requires Listed(items, list)
  {
    forall i | 0 <= i < |list| - 1 :: !Before(items, d, list[i + 1], list[i])
  }

  /** Inserts `x` in front of the first element it sorts before. */
  function InsertSorted(items: map<string, ItemState>, d: real, x: ScoredItem, list: seq<ScoredItem>): (r: seq<ScoredItem>)
    requires x.id in items && Listed(items, list)
    ensures |r| == |list| + 1
    ensures multiset(r) == multiset(list) + multiset{x}
    ensures Listed(items, r)
    ensures |list| > 0 ==> r[0] == x || r[0] == list[0]
  {
    if |list| == 0 then [x]
    else if Before(items, d, x, list[0]) then [x] + list
    else
      var rest := InsertSorted(items, d, x, list[1..]);
      assert list == [list[0]] + list[1..];
      [list[0]] + rest
  }

  /** Inserting adds exactly the inserted entry's id to the ids. */
  lemma {:induction false} InsertSortedIds(items: map<string, ItemState>, d: real, x: ScoredItem, list: seq<ScoredItem>)
    requires x.id in items && Listed(items, list)
    ensures multiset(Ids(InsertSorted(items, d, x, list))) == multiset(Ids(list)) + multiset{x.id}
  {
    if |list| > 0 {
      if Before(items, d, x, list[0]) {
        IdsOfCons(x, list);
      } else {
        var rest := InsertSorted(items, d, x, list[1..]);
        InsertSortedIds(items, d, x, list[1..]);
        IdsOfTail(list);
        IdsOfCons(list[0], rest);
      }
    }
  }

  lemma {:induction false} InsertKeepsOrder(items: map<string, ItemState>, d: real, x: ScoredItem, list: seq<ScoredItem>)
    requires x.id in items && Listed(items, list)
    requires Ordered(items, d, list)
    ensures Ordered(items, d, InsertSorted(items, d, x, list))
  {
    if |list| == 0 {
    } else if Before(items, d, x, list[0]) {
      BeforeIsAsymmetric(items, d, x, list[0]);
      var r := InsertSorted(items, d, x, list);
      assert r == [x] + list;
      forall i | 0 <= i < |r| - 1 ensures !Before(items, d, r[i + 1], r[i]) {
        if i > 0 {
          assert r[i] == list[i - 1] && r[i + 1] == list[i];
        }
      }
    } else {
      var rest := InsertSorted(items, d, x, list[1..]);
      InsertKeepsOrder(items, d, x, list[1..]);
      var r := [list[0]] + rest;
      assert r == InsertSorted(items, d, x, list);
      forall i | 0 <= i < |r| - 1 ensures !Before(items, d, r[i + 1], r[i]) {
        if i == 0 {
          if |list| > 1 && rest[0] == list[1] {
            assert !Before(items, d, list[1], list[0]);
          }
        } else {
          assert r[i] == rest[i - 1] && r[i + 1] == rest[i];
        }
      }
    }
  }

  lemma SortStep(items: map<string, ItemState>, d: real, list: seq<ScoredItem>, sortedTail: seq<ScoredItem>)
    requires |list| > 0 && Listed(items, list) && Listed(items, sortedTail)
    requires multiset(sortedTail) == multiset(list[1..])
    requires multiset(Ids(sortedTail)) == multiset(Ids(list[1..]))
    requires Ordered(items, d, sortedTail)
    ensures multiset(InsertSorted(items, d, list[0], sortedTail)) == multiset(list)
    ensures multiset(Ids(InsertSorted(items, d, list[0], sortedTail))) == multiset(Ids(list))
    ensures Ordered(items, d, InsertSorted(items, d, list[0], sortedTail))
  {
    assert list == [list[0]] + list[1..];
    assert multiset(list) == multiset(list[1..]) + multiset{list[0]};
    IdsOfTail(list);
    assert multiset(Ids(list)) == multiset(Ids(list[1..])) + multiset{list[0].id};
    InsertKeepsOrder(items, d, list[0], sortedTail);
    InsertSortedIds(items, d, list[0], sortedTail);
  }

  /** Sorts `list` with the comparator: a permutation of `list` in which no
      neighbouring pair is one the comparator would swap. */
  function Sort(items: map<string, ItemState>, d: real, list: seq<ScoredItem>): (r: seq<ScoredItem>)
    requires Listed(items, list)
    ensures multiset(r) == multiset(list)
    ensures multiset(Ids(r)) == multiset(Ids(list))
    ensures |r| == |list| && Listed(items, r)
    ensures Ordered(items, d, r)
  {
    if |list| == 0 then []
    else
      var sortedTail := Sort(items, d, list[1..]);
      SortStep(items, d, list, sortedTail);
      InsertSorted(items, d, list[0], sortedTail)
  }

  /** Sorting keeps the ids pairwise different. */
  lemma SortKeepsDistinct(items: map<string, ItemState>, d: real, list: seq<ScoredItem>)
    requires Listed(items, list)
    ensures DistinctIds(Sort(items, d, list)) <==> DistinctIds(list)
  {
    PermutationKeepsNoDuplicates(Ids(Sort(items, d, list)), Ids(list));
  }
}

=== FILE: scenarios.dfy ===
/** The behaviours the original's unit tests exercise, stated for every clock
    reading and every `pow`: the outcomes below do not depend on scores. */
module Scenarios {
  import opened Wrappers
  import opened Items
  import opened Scores
  import opened Engine

  /** `visitItem(visits[0])`, `visitItem(visits[1])`, ... in turn, the i-th
      call at clock reading `clocks[i]`. */
  function RunVisits(e: AccessRank, visits: seq<Option<string>>, clocks: seq<Clock>, pow: Pow): (r: AccessRank)
    requires Valid(e) && |clocks| == |visits|
    ensures Valid(r)
    ensures |visits| > 0 && visits[|visits| - 1].None? ==> MostRecentItem(r) == None
    ensures |visits| > 0 && visits[|visits| - 1].Some? ==> r.mostRecentItemID == visits[|visits| - 1].value
    decreases |visits|
  {
    if |visits| == 0 then e
    else RunVisits(VisitItem(e, visits[0], clocks[0], pow), visits[1..], clocks[1..], pow)
  }

  /** How many of `visits` name an item. */
  function Named(visits: seq<Option<string>>): (n: nat)
    ensures n <= |visits|
  {
    if |visits| == 0 then 0 else (if visits[0].Some? then 1 else 0) + Named(visits[1..])
  }

  /** The items `visits` name are new to `e`, real, and each named once. */
  ghost predicate FreshVisits(e: AccessRank, visits: seq<Option<string>>) {
    && (forall i, j | 0 <= i < j < |visits| && visits[i].Some? :: visits[i] != visits[j])
    && (forall i | 0 <= i < |visits| && visits[i].Some? ::
          visits[i].value != Sentinel && visits[i].value != e.mostRecentItemID && visits[i].value !in e.items)
  }

  /** Dropping the first visit keeps the rest fresh for the engine after it. */
  lemma FreshVisitsTail(e: AccessRank, e1: AccessRank, visits: seq<Option<string>>)
    requires |visits| > 0 && FreshVisits(e, visits)
    requires forall id | id in e1.items :: id in e.items || id == e.mostRecentItemID || id == Sentinel || Some(id) == visits[0]
    requires e1.mostRecentItemID == Sentinel || Some(e1.mostRecentItemID) == visits[0]
    ensures FreshVisits(e1, visits[1..])
  {
    var t := visits[1..];
    forall i | 0 <= i < |t| && t[i].Some?
      ensures t[i].value != Sentinel && t[i].value != e1.mostRecentItemID && t[i].value !in e1.items
    {
      assert t[i] == visits[i + 1];
      assert visits[0] != visits[i + 1] || visits[0].None?;
    }
    forall i, j | 0 <= i < j < |t| && t[i].Some? ensures t[i] != t[j] {
      assert t[i] == visits[i + 1] && t[j] == visits[j + 1];
    }
  }

  /** Visiting items never seen before, each once, and possibly nothing in
      between: every named item is appended to the list, nothing else is, and
      only the named items and the sentinel gain a state. */
  lemma {:induction false} FirstVisitsGrowList(e: AccessRank, visits: seq<Option<string>>, clocks: seq<Clock>, pow: Pow)
    requires Valid(e) && |clocks| == |visits|
    requires FreshVisits(e, visits)
    ensures var r := RunVisits(e, visits, clocks, pow);
      && |r.predictionList| == |e.predictionList| + Named(visits)
      && (forall id :: id in Ids(r.predictionList) <==> id in Ids(e.predictionList) || Some(id) in visits)
      && (forall id | id in r.items :: id in e.items || id == e.mostRecentItemID || id == Sentinel || Some(id) in visits)
    decreases |visits|
  {
    if |visits| > 0 {
      var e1 := VisitItem(e, visits[0], clocks[0], pow);
      if visits[0].Some? {
        assert FirstVisit(e, visits[0].value);
      }
      FreshVisitsTail(e, e1, visits);
      FirstVisitsGrowList(e1, visits[1..], clocks[1..], pow);
      assert visits == [visits[0]] + visits[1..];
    }
  }

  /** From an empty prediction list, a run of first visits that ends on an
      item predicts every other item it named, and nothing else. */
  lemma RunPredictsEarlierVisits(e: AccessRank, visits: seq<Option<string>>, clocks: seq<Clock>, pow: Pow)
    requires Valid(e) && |clocks| == |visits| && e.predictionList == []
    requires FreshVisits(e, visits)
    requires |visits| > 0 && visits[|visits| - 1].Some?
    ensures var r := RunVisits(e, visits, clocks, pow);
      && |Predictions(r)| == Named(visits) - 1
      && MostRecentItem(r) == visits[|visits| - 1]
      && forall id :: id in Predictions(r) <==> Some(id) in visits && Some(id) != visits[|visits| - 1]
  {
    var r := RunVisits(e, visits, clocks, pow);
    FirstVisitsGrowList(e, visits, clocks, pow);
    PredictionCount(r);
    assert r.mostRecentItemID in Ids(r.predictionList);
  }

  /** Visiting A, B, C from a fresh engine leaves C as the current item and
      two predictions... */
  lemma ThreeVisitsPredictTwo(stability: Stability, c1: Clock, c2: Clock, c3: Clock, pow: Pow)
    ensures var e := RunVisits(Fresh(stability), [Some("A"), Some("B"), Some("C")], [c1, c2, c3], pow);
      && |Predictions(e)| == 2
      && MostRecentItem(e) == Some("C")
  {
    FreshIsValid(stability);
    RunPredictsEarlierVisits(Fresh(stability), [Some("A"), Some("B"), Some("C")], [c1, c2, c3], pow);
  }

  /** ... and those two are A and B. */
  lemma ThreeVisitsPredictEarlierTwo(stability: Stability, c1: Clock, c2: Clock, c3: Clock, pow: Pow)
    ensures var e := RunVisits(Fresh(stability), [Some("A"), Some("B"), Some("C")], [c1, c2, c3], pow);
      forall id :: id in Predictions(e) <==> id == "A" || id == "B"
  {
    FreshIsValid(stability);
    var visits := [Some("A"), Some("B"), Some("C")];
    RunPredictsEarlierVisits(Fresh(stability), visits, [c1, c2, c3], pow);
    assert forall id :: Some(id) in visits && Some(id) != visits[2] <==> id == "A" || id == "B";
  }

  /** Visiting A then B leaves exactly one prediction, A. */
  lemma TwoVisitsPredictOne(stability: Stability, c1: Clock, c2: Clock, pow: Pow)
    ensures var e := RunVisits(Fresh(stability), [Some("A"), Some("B")], [c1, c2], pow);
      && |Predictions(e)| == 1
      && forall id :: id in Predictions(e) <==> id == "A"
  {
    FreshIsValid(stability);
    RunPredictsEarlierVisits(Fresh(stability), [Some("A"), Some("B")], [c1, c2], pow);
  }

  /** A, B, a visit to nothing, then C: the sentinel, recorded as the source
      of the transition to C, never becomes a prediction... */
  lemma NilVisitKeepsSentinelOut(stability: Stability, c1: Clock, c2: Clock, c3: Clock, c4: Clock, pow: Pow)
    ensures var e := RunVisits(Fresh(stability), [Some("A"), Some("B"), None, Some("C")], [c1, c2, c3, c4], pow);
      && Sentinel !in Predictions(e)
      && MostRecentItem(e) == Some("C")
  {
    FreshIsValid(stability);
    RunPredictsEarlierVisits(Fresh(stability), [Some("A"), Some("B"), None, Some("C")], [c1, c2, c3, c4], pow);
  }

  /** ... and A and B are the predictions. */
  lemma NilVisitPredictsEarlierTwo(stability: Stability, c1: Clock, c2: Clock, c3: Clock, c4: Clock, pow: Pow)
    ensures var e := RunVisits(Fresh(stability), [Some("A"), Some("B"), None, Some("C")], [c1, c2, c3, c4], pow);
      forall id :: id in Predictions(e) <==> id == "A" || id == "B"
  {
    FreshIsValid(stability);
    RunPredictsEarlierVisits(Fresh(stability), [Some("A"), Some("B"), None, Some("C")], [c1, c2, c3, c4], pow);
  }

  /** Removing C and the current item A from a state listing exactly A, B and
      C. */
  lemma RemoveCurrentAndC(e: AccessRank, clock: Clock, pow: Pow)
    requires Valid(e) && e.mostRecentItemID == "A"
    requires forall id :: id in Ids(e.predictionList) <==> id == "A" || id == "B" || id == "C"
    ensures var r := RemoveItems(e, ["C", "A"], clock, pow);
      && MostRecentItem(r) == None
      && "A" !in r.items && "C" !in r.items
      && forall id :: id in Predictions(r) <==> id == "B"
  {
    assert "C" in ["C", "A"] && "A" in ["C", "A"] && "B" !in ["C", "A"];
  }

  /** Visiting A, B, C and then A again lists exactly A, B and C, with A
      current. */
  lemma ReturnToFirstListsThree(stability: Stability, c1: Clock, c2: Clock, c3: Clock, c4: Clock, pow: Pow)
    ensures var abc := RunVisits(Fresh(stability), [Some("A"), Some("B"), Some("C")], [c1, c2, c3], pow);
      var e := VisitItem(abc, Some("A"), c4, pow);
      && e.mostRecentItemID == "A"
      && forall id :: id in Ids(e.predictionList) <==> id == "A" || id == "B" || id == "C"
  {
    FreshIsValid(stability);
    FirstVisitsGrowList(Fresh(stability), [Some("A"), Some("B"), Some("C")], [c1, c2, c3], pow);
    RevisitKeepsList(RunVisits(Fresh(stability), [Some("A"), Some("B"), Some("C")], [c1, c2, c3], pow), "A", c4, pow);
  }

  /** After A, B, C, A, removing C and A leaves no current item and B as the
      only prediction. */
  lemma RemovingCurrentAndOther(stability: Stability, c1: Clock, c2: Clock, c3: Clock, c4: Clock, c5: Clock, pow: Pow)
    ensures var abc := RunVisits(Fresh(stability), [Some("A"), Some("B"), Some("C")], [c1, c2, c3], pow);
      var r := RemoveItems(VisitItem(abc, Some("A"), c4, pow), ["C", "A"], c5, pow);
      && MostRecentItem(r) == None
      && forall id :: id in Predictions(r) <==> id == "B"
  {
    ReturnToFirstListsThree(stability, c1, c2, c3, c4, pow);
    var abc := RunVisits(Fresh(stability), [Some("A"), Some("B"), Some("C")], [c1, c2, c3], pow);
    RemoveCurrentAndC(VisitItem(abc, Some("A"), c4, pow), c5, pow);
  }

  /** A revisit keeps the listed ids and makes the revisited item current. */
  lemma RevisitKeepsList(e: AccessRank, x: string, clock: Clock, pow: Pow)
    requires Valid(e) && x != Sentinel && x in Ids(e.predictionList)
    ensures var r := VisitItem(e, Some(x), clock, pow);
      && r.mostRecentItemID == x
      && forall id :: id in Ids(r.predictionList) <==> id in Ids(e.predictionList)
  {
  }

  /** A run followed by one more visit is the longer run. */
  lemma {:induction false} RunOneMore(e: AccessRank, visits: seq<Option<string>>, v: Option<string>,
                                      clocks: seq<Clock>, clock: Clock, pow: Pow)
    requires Valid(e) && |clocks| == |visits|
    ensures RunVisits(e, visits + [v], clocks + [clock], pow)
      == VisitItem(RunVisits(e, visits, clocks, pow), v, clock, pow)
    decreases |visits|
  {
    if |visits| > 0 {
      var e1 := VisitItem(e, visits[0], clocks[0], pow);
      assert (visits + [v])[1..] == visits[1..] + [v];
      assert (clocks + [clock])[1..] == clocks[1..] + [clock];
      RunOneMore(e1, visits[1..], v, clocks[1..], clock, pow);
    }
  }
}

=== FILE: scores.dfy ===
/** The combined score of an item: a Markov weight, the recency/frequency
    weight and a time weight. Floating-point `pow` is an uninterpreted
    parameter; everything around it is modelled over the reals. */
module Scores {
  import opened Items
  import opened TimeSlots

  /** List stability: `L()` is the blend exponent, `D()` the rank bonus. */
  datatype Stability = Low | Medium | High {
    function L(): (l: real)
      ensures l > 0.0
    {
      match this
      case Low => 1.65
      case Medium => 1.65
      case High => 2.5
    }

    function D(): (d: real)
      ensures d >= 0.0
    {
      match this
      case Low => 0.0
      case Medium => 0.2
      case High => 0.5
    }
  }

  /** How often `current` has been visited, zero when it has no state. */
  function VisitCount(items: map<string, ItemState>, current: string): int {
    if current in items then items[current].numberOfVisits else 0
  }

  /** How many transitions from `current` to `target` are recorded. */
  function TransitionCount(items: map<string, ItemState>, current: string, target: string): nat {
    if current in items then |TransitionsTo(items[current], target)| else 0
  }

  /** Laplace-smoothed probability of moving from `current` to `target`:
      (transitions + 1) / (visits of current + 1). */
  function MarkovWeight(items: map<string, ItemState>, current: string, target: string): (w: real)
    requires VisitCount(items, current) >= 0
    ensures w > 0.0
    ensures w <= 1.0 <==> TransitionCount(items, current, target) <= VisitCount(items, current)
    ensures w * (VisitCount(items, current) + 1) as real == (TransitionCount(items, current, target) + 1) as real
  {
    var x := TransitionCount(items, current, target) as real;
    var xn := VisitCount(items, current) as real;
    Fraction(x + 1.0, xn + 1.0);
    (x + 1.0) / (xn + 1.0)
  }

  /** A quotient of positive reals is positive, at most 1 exactly when the
      numerator is at most the denominator, and times the denominator gives
      back the numerator. */
  lemma Fraction(a: real, b: real)
    requires a > 0.0 && b > 0.0
    ensures a / b > 0.0
    ensures a / b <= 1.0 <==> a <= b
    ensures a / b * b == a
  {
    var q := a / b;
    assert q * b == a;
    assert (q - 1.0) * b == a - b;
  }

  /** A count divided by an average; Swift's division by a zero average gives an
      infinity or NaN, kept here as `NonFinite`. */
  datatype Ratio = Finite(value: real) | NonFinite

  function Quotient(count: nat, average: real): (r: Ratio)
    ensures r.NonFinite? <==> average == 0.0
    ensures r.Finite? ==> r.value * average == count as real
  {
    if average == 0.0 then NonFinite else Finite(count as real / average)
  }

  /** The hour-of-day ratio for `target` at clock hour `hour`: neutral while fewer
      than ten transitions of any item fall in the current window, otherwise the
      window count over its average across the eight windows of the day. */
  function HourOfDayRatio(items: map<string, ItemState>, target: string, hour: int): (r: Ratio)
    ensures VisitsInHourSlot(items, hour) < 10 ==> r == Finite(1.0)
    ensures VisitsInHourSlot(items, hour) >= 10 ==>
      (r.NonFinite? <==> HourSlotBase(items, target) == 0)
    ensures VisitsInHourSlot(items, hour) >= 10 && r.Finite? ==>
      r.value * HourSlotBase(items, target) as real == 8.0 * VisitsToInHourSlot(items, target, hour) as real
  {
    if VisitsInHourSlot(items, hour) < 10 then Finite(1.0)
    else Quotient(VisitsToInHourSlot(items, target, hour), HourSlotBase(items, target) as real / 8.0)
  }

  /** The day-of-week ratio, with the seven weekdays as the averaging base. */
  function DayOfWeekRatio(items: map<string, ItemState>, target: string, weekday: int): (r: Ratio)
    ensures VisitsAtWeekday(items, weekday) < 10 ==> r == Finite(1.0)
    ensures VisitsAtWeekday(items, weekday) >= 10 ==>
      (r.NonFinite? <==> WeekdayBase(items, target) == 0)
    ensures VisitsAtWeekday(items, weekday) >= 10 && r.Finite? ==>
      r.value * WeekdayBase(items, target) as real == 7.0 * VisitsToAtWeekday(items, target, weekday) as real
  {
    if VisitsAtWeekday(items, weekday) < 10 then Finite(1.0)
    else Quotient(VisitsToAtWeekday(items, target, weekday), WeekdayBase(items, target) as real / 7.0)
  }

  /** With clock-stamped records the hour ratio never exceeds 8 (the window
      holds at most all records of the day, the average is an eighth of them),
      and it is non-finite only as 0/0. */
  lemma HourRatioBounded(items: map<string, ItemState>, target: string, hour: int)
    requires ClockStamped(items)
    requires 0 <= hour <= 23
    ensures HourOfDayRatio(items, target, hour).Finite? ==>
      0.0 <= HourOfDayRatio(items, target, hour).value <= 8.0
    ensures HourOfDayRatio(items, target, hour).NonFinite? ==>
      VisitsToInHourSlot(items, target, hour) == 0
  {
    HourWindowWithinBase(items, target, hour);
    var r := HourOfDayRatio(items, target, hour);
    if VisitsInHourSlot(items, hour) >= 10 && r.Finite? {
      ScaledBound(r.value, HourSlotBase(items, target) as real, VisitsToInHourSlot(items, target, hour) as real, 8.0);
    }
  }

  lemma WeekdayRatioBounded(items: map<string, ItemState>, target: string, weekday: int)
    requires ClockStamped(items)
    ensures DayOfWeekRatio(items, target, weekday).Finite? ==>
      0.0 <= DayOfWeekRatio(items, target, weekday).value <= 7.0
    ensures DayOfWeekRatio(items, target, weekday).NonFinite? ==>
      VisitsToAtWeekday(items, target, weekday) == 0
  {
    WeekdayWithinBase(items, target, weekday);
    var r := DayOfWeekRatio(items, target, weekday);
    if VisitsAtWeekday(items, weekday) >= 10 && r.Finite? {
      ScaledBound(r.value, WeekdayBase(items, target) as real, VisitsToAtWeekday(items, target, weekday) as real, 7.0);
    }
  }

  /** If `v · base = k · count` with `0 <= count <= base` and a positive base,
      then `v` lies in `[0, k]`. */
  lemma ScaledBound(v: real, base: real, count: real, k: real)
    requires base > 0.0 && 0.0 <= count <= base && k >= 0.0
    requires v * base == k * count
    ensures 0.0 <= v <= k
  {
    assert k * count <= k * base;
    assert (k - v) * base == k * base - k * count;
    assert v * base >= 0.0;
  }

  function Min(a: real, b: real): real { if b < a then b else a }
  function Max(a: real, b: real): real { if b >= a then b else a }

  /** `max(0.8, min(1.25, rh * rd))`. Swift's `min(1.25, x)` returns 1.25 when
      `x < 1.25` is false, which is the case for an infinite or NaN product. */
  function TimeFactor(rh: Ratio, rd: Ratio): (f: real)
    ensures 0.8 <= f <= 1.25
    ensures rh.Finite? && rd.Finite? && 0.8 <= rh.value * rd.value <= 1.25 ==> f == rh.value * rd.value
    ensures rh.NonFinite? || rd.NonFinite? ==> f == 1.25
  {
    match (rh, rd)
    case (Finite(a), Finite(b)) => Max(0.8, Min(1.25, a * b))
    case _ => 1.25
  }

  /** The time weight: the fourth root of the clamped ratio product, or 1 when
      time weighting is off. */
  function TimeWeight(items: map<string, ItemState>, target: string, clock: Clock,
                      useTimeWeighting: bool, pow: Pow): (w: real)
    ensures !useTimeWeighting ==> w == 1.0
    ensures useTimeWeighting && VisitsInHourSlot(items, clock.hour) < 10 && VisitsAtWeekday(items, clock.weekday) < 10
      ==> w == pow(1.0, 0.25)
  {
    if useTimeWeighting then
      pow(TimeFactor(HourOfDayRatio(items, target, clock.hour), DayOfWeekRatio(items, target, clock.weekday)), 0.25)
    else 1.0
  }

  /** `markov^l * crf^(1/l) * time` for `target`, seen from the current item. */
  function Score(items: map<string, ItemState>, current: string, target: string, clock: Clock,
                 useTimeWeighting: bool, stability: Stability, pow: Pow): real
    requires target in items
    requires VisitCount(items, current) >= 0
  {
    var l := stability.L();
    pow(MarkovWeight(items, current, target), l)
      * pow(items[target].crfWeight, 1.0 / l)
      * TimeWeight(items, target, clock, useTimeWeighting, pow)
  }
}

=== FILE: snapshot.dfy ===
/** The snapshot codec: the engine state as a dictionary of plain values
    (`toDictionary`) and back (`fromDictionary` and the per-record
    `init(data:)`). Decoding yields `None` where the original's forced casts
    would trap: a missing key or a value of another type. Keys the decoder does
    not look at are ignored. */
module Snapshot {
  import opened Wrappers
  import opened Items
  import opened Scores
  import opened Engine

  /** A property-list value: string, integer, double, array or dictionary. */
  datatype Value =
    | Str(s: string)
    | Int(i: int)
    | Num(x: real)
    | Arr(elems: seq<Value>)
    | Obj(fields: map<string, Value>)

  function GetStr(v: Value, key: string): (r: Option<string>)
    ensures r.Some? <==> v.Obj? && key in v.fields && v.fields[key].Str?
  {
    if v.Obj? && key in v.fields && v.fields[key].Str? then Some(v.fields[key].s) else None
  }

  function GetInt(v: Value, key: string): (r: Option<int>)
    ensures r.Some? <==> v.Obj? && key in v.fields && v.fields[key].Int?
  {
    if v.Obj? && key in v.fields && v.fields[key].Int? then Some(v.fields[key].i) else None
  }

  function GetNum(v: Value, key: string): (r: Option<real>)
    ensures r.Some? <==> v.Obj? && key in v.fields && v.fields[key].Num?
  {
    if v.Obj? && key in v.fields && v.fields[key].Num? then Some(v.fields[key].x) else None
  }

  // ---------------------------------------------------------------------------
  // ItemVisit

  /** `ItemVisit.toDictionary`: the three fields under their own names. */
  function EncodeVisit(v: ItemVisit): (r: Value)
    ensures r.Obj? && r.fields.Keys == {"id", "hour", "weekday"}
    ensures GetStr(r, "id") == Some(v.id)
    ensures GetInt(r, "hour") == Some(v.hour) && GetInt(r, "weekday") == Some(v.weekday)
  {
    Obj(map["id" := Str(v.id), "hour" := Int(v.hour), "weekday" := Int(v.weekday)])
  }

  function DecodeVisit(v: Value): (r: Option<ItemVisit>)
    ensures r.Some? ==> GetStr(v, "id").Some? && GetInt(v, "hour").Some? && GetInt(v, "weekday").Some?
  {
    var id :- GetStr(v, "id");
    var hour :- GetInt(v, "hour");
    var weekday :- GetInt(v, "weekday");
    Some(ItemVisit(id, hour, weekday))
  }

  lemma VisitRoundTrip(v: ItemVisit)
    ensures DecodeVisit(EncodeVisit(v)) == Some(v)
  {
  }

  function EncodeVisits(vs: seq<ItemVisit>): (r: seq<Value>)
    ensures |r| == |vs|
  {
    seq(|vs|, i requires 0 <= i < |vs| => EncodeVisit(vs[i]))
  }

  /** Decodes an array of visit records; one bad record rejects the array. */
  function DecodeVisits(js: seq<Value>): (r: Option<seq<ItemVisit>>)
    ensures r.Some? ==> |r.value| == |js|
  {
    if |js| == 0 then Some([])
    else
      var first :- DecodeVisit(js[0]);
      var rest :- DecodeVisits(js[1..]);
      Some([first] + rest)
  }

  lemma {:induction false} VisitsRoundTrip(vs: seq<ItemVisit>)
    ensures DecodeVisits(EncodeVisits(vs)) == Some(vs)
  {
    if |vs| > 0 {
      assert EncodeVisits(vs)[1..] == EncodeVisits(vs[1..]);
      VisitRoundTrip(vs[0]);
      VisitsRoundTrip(vs[1..]);
      assert vs == [vs[0]] + vs[1..];
    }
  }

  // ---------------------------------------------------------------------------
  // ItemState

  function EncodeNextVisits(m: map<string, seq<ItemVisit>>): Value {
    Obj(map k | k in m :: Arr(EncodeVisits(m[k])))
  }

  /** Decodes the transition histories: a dictionary of arrays of visit records. */
  function DecodeNextVisits(v: Value): (r: Option<map<string, seq<ItemVisit>>>)
    ensures r.Some? ==> v.Obj? && r.value.Keys == v.fields.Keys
  {
    if v.Obj? && forall k | k in v.fields :: v.fields[k].Arr? && DecodeVisits(v.fields[k].elems).Some?
    then Some(map k | k in v.fields :: DecodeVisits(v.fields[k].elems).value)
    else None
  }

  lemma NextVisitsRoundTrip(m: map<string, seq<ItemVisit>>)
    ensures DecodeNextVisits(EncodeNextVisits(m)) == Some(m)
  {
    var fields := EncodeNextVisits(m).fields;
    forall k | k in fields ensures fields[k].Arr? && DecodeVisits(fields[k].elems) == Some(m[k]) {
      VisitsRoundTrip(m[k]);
    }
    assert (map k | k in fields :: DecodeVisits(fields[k].elems).value) == m;
  }

  /** `ItemState.toDictionary`: the six fields under their own names, the
      transition histories as a dictionary keyed by target. */
  function EncodeState(st: ItemState): (r: Value)
    ensures r.Obj? && r.fields.Keys
      == {"nextVisits", "visitNumber", "numberOfVisits", "timeOfLastVisit", "crfWeight", "rank"}
    ensures r.fields["nextVisits"].Obj? && r.fields["nextVisits"].fields.Keys == st.nextVisits.Keys
    ensures GetInt(r, "visitNumber") == Some(st.visitNumber)
    ensures GetInt(r, "numberOfVisits") == Some(st.numberOfVisits)
    ensures GetNum(r, "timeOfLastVisit") == Some(st.timeOfLastVisit)
    ensures GetNum(r, "crfWeight") == Some(st.crfWeight)
    ensures GetInt(r, "rank") == Some(st.rank)
  {
    Obj(map[
      "nextVisits" := EncodeNextVisits(st.nextVisits),
      "visitNumber" := Int(st.visitNumber),
      "numberOfVisits" := Int(st.numberOfVisits),
      "timeOfLastVisit" := Num(st.timeOfLastVisit),
      "crfWeight" := Num(st.crfWeight),
      "rank" := Int(st.rank)])
  }

  function DecodeState(v: Value): (r: Option<ItemState>)
    ensures r.Some? ==>
      && v.Obj? && "nextVisits" in v.fields
      && GetInt(v, "visitNumber").Some? && GetInt(v, "numberOfVisits").Some?
      && GetNum(v, "timeOfLastVisit").Some? && GetNum(v, "crfWeight").Some?
      && GetInt(v, "rank").Some?
  {
    if !v.Obj? || "nextVisits" !in v.fields then None
    else
      var nextVisits :- DecodeNextVisits(v.fields["nextVisits"]);
      var visitNumber :- GetInt(v, "visitNumber");
      var numberOfVisits :- GetInt(v, "numberOfVisits");
      var timeOfLastVisit :- GetNum(v, "timeOfLastVisit");
      var crfWeight :- GetNum(v, "crfWeight");
      var rank :- GetInt(v, "rank");
      Some(ItemState(nextVisits, visitNumber, numberOfVisits, timeOfLastVisit, crfWeight, rank))
  }

  lemma StateRoundTrip(st: ItemState)
    ensures DecodeState(EncodeState(st)) == Some(st)
  {
    NextVisitsRoundTrip(st.nextVisits);
  }

  function EncodeItems(items: map<string, ItemState>): Value {
    Obj(map k | k in items :: EncodeState(items[k]))
  }

  function DecodeItems(v: Value): (r: Option<map<string, ItemState>>)
    ensures r.Some? ==> v.Obj? && r.value.Keys == v.fields.Keys
  {
    if v.Obj? && forall k | k in v.fields :: DecodeState(v.fields[k]).Some?
    then Some(map k | k in v.fields :: DecodeState(v.fields[k]).value)
    else None
  }

  lemma ItemsRoundTrip(items: map<string, ItemState>)
    ensures DecodeItems(EncodeItems(items)) == Some(items)
  {
    var fields := EncodeItems(items).fields;
    forall k | k in fields ensures DecodeState(fields[k]) == Some(items[k]) {
      StateRoundTrip(items[k]);
    }
    assert (map k | k in fields :: DecodeState(fields[k]).value) == items;
  }

  // ---------------------------------------------------------------------------
  // ScoredItem

  /** `ScoredItem.toDictionary`: the id and the score. */
  function EncodeScored(s: ScoredItem): (r: Value)
    ensures r.Obj? && r.fields.Keys == {"id", "score"}
    ensures GetStr(r, "id") == Some(s.id) && GetNum(r, "score") == Some(s.score)
  {
    Obj(map["id" := Str(s.id), "score" := Num(s.score)])
  }

  function DecodeScored(v: Value): (r: Option<ScoredItem>)
    ensures r.Some? ==> GetStr(v, "id").Some? && GetNum(v, "score").Some?
  {
    var id :- GetStr(v, "id");
    var score :- GetNum(v, "score");
    Some(ScoredItem(id, score))
  }

  function EncodeList(list: seq<ScoredItem>): (r: seq<Value>)
    ensures |r| == |list|
  {
    seq(|list|, i requires 0 <= i < |list| => EncodeScored(list[i]))
  }

  function DecodeList(js: seq<Value>): (r: Option<seq<ScoredItem>>)
    ensures r.Some? ==> |r.value| == |js|
  {
    if |js| == 0 then Some([])
    else
      var first :- DecodeScored(js[0]);
      var rest :- DecodeList(js[1..]);
      Some([first] + rest)
  }

  lemma {:induction false} ListRoundTrip(list: seq<ScoredItem>)
    ensures DecodeList(EncodeList(list)) == Some(list)
  {
    if |list| > 0 {
      assert EncodeList(list)[1..] == EncodeList(list[1..]);
      ListRoundTrip(list[1..]);
      assert list == [list[0]] + list[1..];
    }
  }

  // ---------------------------------------------------------------------------
  // Engine

  /** `toDictionary`: the items, the prediction list, the visit counter and the
      current item. The list stability and the time-weighting switch are not
      part of the snapshot. */
  function ToDictionary(e: AccessRank): (r: Value)
    ensures r.Obj? && r.fields.Keys == {"items", "predictionList", "visitNumber", "mostRecentItemID"}
    ensures r.fields["items"].Obj? && r.fields["items"].fields.Keys == e.items.Keys
    ensures r.fields["predictionList"].Arr? && |r.fields["predictionList"].elems| == |e.predictionList|
    ensures GetInt(r, "visitNumber") == Some(e.visitNumber)
    ensures GetStr(r, "mostRecentItemID") == Some(e.mostRecentItemID)
  {
    Obj(map[
      "items" := EncodeItems(e.items),
      "predictionList" := Arr(EncodeList(e.predictionList)),
      "visitNumber" := Int(e.visitNumber),
      "mostRecentItemID" := Str(e.mostRecentItemID)])
  }

  /** `fromDictionary`: overwrites the four snapshot fields of `e`. */
  function FromDictionary(e: AccessRank, v: Value): (r: Option<AccessRank>)
    ensures r.Some? ==>
      && v.Obj? && "items" in v.fields && "predictionList" in v.fields
      && v.fields["predictionList"].Arr?
      && GetInt(v, "visitNumber").Some? && GetStr(v, "mostRecentItemID").Some?
    ensures r.Some? ==> r.value.listStability == e.listStability && r.value.useTimeWeighting == e.useTimeWeighting
  {
    if !v.Obj? || "items" !in v.fields || "predictionList" !in v.fields || !v.fields["predictionList"].Arr? then None
    else
      var items :- DecodeItems(v.fields["items"]);
      var list :- DecodeList(v.fields["predictionList"].elems);
      var visitNumber :- GetInt(v, "visitNumber");
      var mostRecentItemID :- GetStr(v, "mostRecentItemID");
      Some(e.(items := items, predictionList := list, visitNumber := visitNumber, mostRecentItemID := mostRecentItemID))
  }

  /** `init(listStability:snapshot:)`: a fresh engine, restored from the
      snapshot when one is given. */
  function Init(stability: Stability, snapshot: Option<Value>): (r: Option<AccessRank>)
    ensures snapshot.None? ==> r == Some(Fresh(stability))
    ensures r.Some? ==> r.value.listStability == stability && r.value.useTimeWeighting
  {
    match snapshot
    case None => Some(Fresh(stability))
    case Some(v) => FromDictionary(Fresh(stability), v)
  }

  /** Restoring a snapshot gives back every field it holds; the list stability
      and time-weighting switch are those of the receiving engine. */
  lemma SnapshotRoundTrip(e: AccessRank, receiver: AccessRank)
    ensures FromDictionary(receiver, ToDictionary(e))
      == Some(e.(listStability := receiver.listStability, useTimeWeighting := receiver.useTimeWeighting))
  {
    var v := ToDictionary(e);
    assert v.fields["items"] == EncodeItems(e.items);
    assert v.fields["predictionList"] == Arr(EncodeList(e.predictionList));
    ItemsRoundTrip(e.items);
    ListRoundTrip(e.predictionList);
  }

  /** An engine restored from its own snapshot, with its own list stability, is
      the same engine (time weighting is on after construction), and in any
      case reports the same current item and the same predictions. */
  lemma RestoreKeepsPredictions(e: AccessRank)
    ensures Init(e.listStability, Some(ToDictionary(e))).Some?
    ensures e.useTimeWeighting ==> Init(e.listStability, Some(ToDictionary(e))) == Some(e)
    ensures MostRecentItem(Init(e.listStability, Some(ToDictionary(e))).value) == MostRecentItem(e)
    ensures Predictions(Init(e.listStability, Some(ToDictionary(e))).value) == Predictions(e)
    ensures Valid(e) ==> Valid(Init(e.listStability, Some(ToDictionary(e))).value)
  {
    SnapshotRoundTrip(e, Fresh(e.listStability));
  }
}

=== FILE: time_slots.dfy ===
/** The integer counting behind the time weight: how many recorded transitions
    fall into an hour window or onto a weekday, engine-wide. The original sums,
    over every item state, the per-state counts of the matching records; here the
    same number is the size of the set of matching transition records. */
module TimeSlots {
  import opened Items

  /** The `index`-th transition recorded from `source` to `target`. */
  datatype Transition = Transition(source: string, target: string, index: nat, visit: ItemVisit)

  /** Every transition recorded anywhere in the engine. */
  function Transitions(items: map<string, ItemState>): (r: set<Transition>)
    ensures forall x | x in r ::
      && x.source in items && x.target in items[x.source].nextVisits
      && x.index < |items[x.source].nextVisits[x.target]|
      && x.visit == items[x.source].nextVisits[x.target][x.index]
  {
    set src, t, i | src in items && t in items[src].nextVisits && 0 <= i < |items[src].nextVisits[t]|
      :: Transition(src, t, i, items[src].nextVisits[t][i])
  }

  /** The transitions recorded towards `target`, from any item. */
  function TransitionsInto(items: map<string, ItemState>, target: string): (r: set<Transition>)
    ensures r <= Transitions(items)
    ensures forall x | x in r :: x.target == target
  {
    set x | x in Transitions(items) && x.target == target
  }

  function HourOf(v: ItemVisit): int { v.hour }
  function WeekdayOf(v: ItemVisit): int { v.weekday }

  /** The transitions of `ts` whose `key` (hour or weekday) lies in `lo..hi`. */
  function Within(ts: set<Transition>, key: ItemVisit -> int, lo: int, hi: int): (r: set<Transition>)
    ensures r <= ts
    ensures forall x | x in ts :: x in r <==> lo <= key(x.visit) <= hi
  {
    set x | x in ts && lo <= key(x.visit) <= hi
  }

  /** The hour window of `slot` is `slot - 1 .. slot + 1`; it does not wrap
      around midnight, so the window of hour 0 is `-1 .. 1` and that of hour 23
      is `22 .. 24`. */
  function HourSlot(ts: set<Transition>, slot: int): (r: set<Transition>)
    ensures r <= ts
    ensures forall x | x in ts :: x in r <==> slot - 1 <= x.visit.hour <= slot + 1
    ensures slot == 0 ==> forall x | x in r :: x.visit.hour != 23
    ensures slot == 23 ==> forall x | x in r :: x.visit.hour != 0
  {
    Within(ts, HourOf, slot - 1, slot + 1)
  }

  function OnWeekday(ts: set<Transition>, weekday: int): (r: set<Transition>)
    ensures r <= ts
    ensures forall x | x in ts :: x in r <==> x.visit.weekday == weekday
  {
    Within(ts, WeekdayOf, weekday, weekday)
  }

  /** The transitions to `target` in the hour window of `slot`. */
  function VisitsToInHourSlot(items: map<string, ItemState>, target: string, slot: int): nat {
    |HourSlot(TransitionsInto(items, target), slot)|
  }

  /** The transitions to any item in the hour window of `slot`. */
  function VisitsInHourSlot(items: map<string, ItemState>, slot: int): nat {
    |HourSlot(Transitions(items), slot)|
  }

  function VisitsToAtWeekday(items: map<string, ItemState>, target: string, weekday: int): nat {
    |OnWeekday(TransitionsInto(items, target), weekday)|
  }

  function VisitsAtWeekday(items: map<string, ItemState>, weekday: int): nat {
    |OnWeekday(Transitions(items), weekday)|
  }

  /** The sum of the window counts at hours 1, 4, ..., 3n - 2. */
  function SlotSum(ts: set<Transition>, n: nat): nat {
    if n == 0 then 0 else SlotSum(ts, n - 1) + |HourSlot(ts, 3 * (n - 1) + 1)|
  }

  /** The sum of the counts on weekdays 1..n. */
  function WeekdaySum(ts: set<Transition>, n: nat): nat {
    if n == 0 then 0 else WeekdaySum(ts, n - 1) + |OnWeekday(ts, n)|
  }

  /** The averaging base of the hour ratio: eight windows, at hours 1, 4, ..., 22. */
  function HourSlotBase(items: map<string, ItemState>, target: string): nat {
    SlotSum(TransitionsInto(items, target), 8)
  }

  /** The averaging base of the weekday ratio: the seven weekdays. */
  function WeekdayBase(items: map<string, ItemState>, target: string): nat {
    WeekdaySum(TransitionsInto(items, target), 7)
  }

  /** Splitting a key range at `mid` splits the matching records in two disjoint parts. */
  lemma SplitRange(ts: set<Transition>, key: ItemVisit -> int, lo: int, mid: int, hi: int)
    requires lo - 1 <= mid <= hi
    ensures |Within(ts, key, lo, hi)| == |Within(ts, key, lo, mid)| + |Within(ts, key, mid + 1, hi)|
  {
    var a, b := Within(ts, key, lo, mid), Within(ts, key, mid + 1, hi);
    assert Within(ts, key, lo, hi) == a + b;
    assert a * b == {};
  }

  /** The first n hour windows tile the hours 0 .. 3n - 1. */
  lemma {:induction false} SlotSumTilesHours(ts: set<Transition>, n: nat)
    ensures SlotSum(ts, n) == |Within(ts, HourOf, 0, 3 * n - 1)|
  {
    if n == 0 {
      assert Within(ts, HourOf, 0, -1) == {};
    } else {
      SlotSumTilesHours(ts, n - 1);
      SplitRange(ts, HourOf, 0, 3 * (n - 1) - 1, 3 * n - 1);
    }
  }

  lemma {:induction false} WeekdaySumTilesDays(ts: set<Transition>, n: nat)
    ensures WeekdaySum(ts, n) == |Within(ts, WeekdayOf, 1, n)|
  {
    if n == 0 {
      assert Within(ts, WeekdayOf, 1, 0) == {};
    } else {
      WeekdaySumTilesDays(ts, n - 1);
      SplitRange(ts, WeekdayOf, 1, n - 1, n);
    }
  }

  /** The eight windows at hours 1, 4, ..., 22 partition the day: their counts add
      up to the number of transitions to `target` at a clock hour 0..23. */
  lemma HourSlotsPartitionDay(items: map<string, ItemState>, target: string)
    ensures HourSlotBase(items, target) == |Within(TransitionsInto(items, target), HourOf, 0, 23)|
  {
    SlotSumTilesHours(TransitionsInto(items, target), 8);
  }

  /** The seven weekday counts add up to the number of transitions to `target`
      on a calendar weekday 1..7. */
  lemma WeekdaysPartitionWeek(items: map<string, ItemState>, target: string)
    ensures WeekdayBase(items, target) == |Within(TransitionsInto(items, target), WeekdayOf, 1, 7)|
  {
    WeekdaySumTilesDays(TransitionsInto(items, target), 7);
  }

  lemma SubsetNoLarger(a: set<Transition>, b: set<Transition>)
    requires a <= b
    ensures |a| <= |b|
  {
    assert b == a + (b - a);
  }

  /** Every recorded hour is a clock hour and every weekday a calendar weekday. */
  ghost predicate ClockStamped(items: map<string, ItemState>) {
    forall x | x in Transitions(items) :: 0 <= x.visit.hour <= 23 && 1 <= x.visit.weekday <= 7
  }

  /** With clock-stamped records, the window of any clock hour holds no more
      transitions to `target` than the eight averaging windows together. */
  lemma HourWindowWithinBase(items: map<string, ItemState>, target: string, hour: int)
    requires ClockStamped(items)
    requires 0 <= hour <= 23
    ensures VisitsToInHourSlot(items, target, hour) <= HourSlotBase(items, target)
  {
    var ts := TransitionsInto(items, target);
    HourSlotsPartitionDay(items, target);
    SubsetNoLarger(HourSlot(ts, hour), Within(ts, HourOf, 0, 23));
  }

  lemma WeekdayWithinBase(items: map<string, ItemState>, target: string, weekday: int)
    requires ClockStamped(items)
    ensures VisitsToAtWeekday(items, target, weekday) <= WeekdayBase(items, target)
  {
    var ts := TransitionsInto(items, target);
    WeekdaysPartitionWeek(items, target);
    SubsetNoLarger(OnWeekday(ts, weekday), Within(ts, WeekdayOf, 1, 7));
  }
}

=== FILE: wrappers.dfy ===
/** Optional values, used for the current-item view and for snapshot decoding
    (where the original force-casts and would trap instead). */
module Wrappers {

  datatype Option<+T> = None | Some(value: T) {

    predicate IsFailure() {
      None?
    }

    function PropagateFailure<U>(): Option<U>
      requires None?
    {
      None
    }

    function Extract(): T
      requires Some?
    {
      value
    }
  }
}
